=== FILE: README.md ===
# OpenCTI sessions and AI container summary — a Dafny model

This project models two small cores of OpenCTI.

**The session registry of the API server** (`session.js`).
- The session store is a key prefix plus the sequence of raw records its `all` enumerates. Each record has an optional user, a store key, a remaining time to live and a cookie max age in milliseconds.
- `findSessions` drops the anonymous records. It groups the rest by user id and describes each record as `{id, created, ttl, originalMaxAge}`, rounding the max age to whole seconds.
- `findUserSessions` picks one user's entry.
- `findSessionsForUsers` flattens the entries of a list of users.
- `killSession` asks the store to destroy one session. It resolves with whatever data the store's callback received; the callback's error is dropped.
- `killUserSessions` cuts the store prefix off each of a user's session keys. It then kills the sessions one after another in enumeration order and collects the results.
- `createSessionMiddleware` picks the store, the cookie expiry and the signing secret from the configuration.

**The AI summary panel over related containers** (`AISummaryContainers.tsx`).
- Its state starts with one element for a single container and ten otherwise, and with no relative period.
- The first query sends the panel's filters, newest first.
- `refetch` maps a period token to a start date. For a list of containers with a start date, it appends one `created >= start` filter to the filter group; otherwise it sends the group unchanged. It always forces a refresh.
- The element-count and period selectors store their choice and refetch.
- Responses and errors update the content, the stored answer, the error message and the loading flag.

Modules, one concept each:
- `Wrappers`: `Option`.
- `JsValues`: JavaScript truthiness, `||` and `??`.
- `JsStrings`: `indexOf` and `split(sep)[1]`.
- `SessionTypes`: the registry's data.
- `SessionCodec`: describing a record.
- `SessionGrouping`: the filter and the group-by.
- `SessionRegistry`: the registry's operations.
- `SessionConfig`: the middleware set-up.
- `SummaryFilters`: filter groups and the period bound.
- `AiSummary`: the panel's state and queries.

Interfaces that are not modelled become explicit inputs:
- **Store outages** are a set `failing` of keys the store cannot reach.
- **Configuration** is a `Config` value.
- **Answers and errors from the server** are arguments of the transition functions.
- **Every request the panel sends** is returned as a value.
- **Dates** are the symbolic terms `DaysAgo(n)` and `MonthsAgo(n)`.

**Failure handling follows the code.**
- A failed store call does not abort the kill loop. `killSession` ignores the callback's error and resolves with `undefined` (None in the model), and the loop carries on with the next key. `KillEach` states that every key is attempted and that only the unreachable keys survive.
- A failed refetch has no error handler. Its answer is never applied, so loading stays on. Only the initial query reports errors.

## Model

| member | source | states |
|---|---|---|
| SessionCodec.RoundMillisToSeconds | opencti-platform/opencti-graphql/src/database/session.js:56 | the max age in seconds is within half a second of the milliseconds value, halves going up (`Math.round(ms / 1000)`) |
| SessionCodec.RoundMillisToSecondsUnique | opencti-platform/opencti-graphql/src/database/session.js:56 | the rounding is the only whole number of seconds within half a second of the input |
| SessionCodec.RoundMillisToSecondsExamples | opencti-platform/opencti-graphql/src/database/session.js:56 | 499 ms gives 0, 500 gives 1, 999 gives 1, 1500 gives 2, 60000 gives 60, -500 gives 0, -501 gives -1 |
| SessionCodec.Describe | opencti-platform/opencti-graphql/src/database/session.js:51-57 | a descriptor copies the store key, the user's session creation and the TTL, and holds the rounded max age |
| SessionCodec.MapDescribe | opencti-platform/opencti-graphql/src/database/session.js:51-58 | one descriptor per record, position by position |
| SessionCodec.MapDescribePermutation | opencti-platform/opencti-graphql/src/database/session.js:50-60 | describing two arrangements of the same records gives two arrangements of the same descriptors |
| SessionGrouping.RecordsWhere | opencti-platform/opencti-graphql/src/database/session.js:49 | the kept records are exactly the records with a user whose id is selected, never more than the input |
| SessionGrouping.RecordsWhereAfterWithUser | opencti-platform/opencti-graphql/src/database/session.js:49 | dropping anonymous records first changes the records of no selection |
| SessionGrouping.GroupByUser | opencti-platform/opencti-graphql/src/database/session.js:49 | every record in a group is owned by the group's key |
| SessionGrouping.NoGroupNoRecords | opencti-platform/opencti-graphql/src/database/session.js:49 | a user without a group owns no record |
| SessionGrouping.AddToGroupsPreservesPartition | opencti-platform/opencti-graphql/src/database/session.js:49 | one step of `groupBy` keeps the groups a partition of the records seen so far |
| SessionGrouping.GroupByUserIsPartition | opencti-platform/opencti-graphql/src/database/session.js:49 | group keys are distinct; each group is exactly its user's records in store order and is not empty; every record with a user has a group |
| SessionGrouping.GroupByUserFlatWhere | opencti-platform/opencti-graphql/src/database/session.js:49 | the selected groups together hold exactly the selected records, each once |
| SessionRegistry.Project | opencti-platform/opencti-graphql/src/database/session.js:50-60 | one `{ user_id, sessions }` entry per group, in group order, holding the group's key and its records' descriptors |
| SessionRegistry.FindSessions | opencti-platform/opencti-graphql/src/database/session.js:45-64 | entries have distinct user ids and are never empty; each holds the descriptors of exactly that user's records in store order; every user with a record has an entry |
| SessionRegistry.FindSessionsLosesNoSession | opencti-platform/opencti-graphql/src/database/session.js:49-60 | the entries together hold one descriptor per record with a user, so the counts agree |
| SessionRegistry.FindSessionsSurfacesOnlyOwnedRecords | opencti-platform/opencti-graphql/src/database/session.js:49-59 | every descriptor of an entry describes a stored record that has a user, namely the entry's user |
| SessionRegistry.MatchingGroups | opencti-platform/opencti-graphql/src/database/session.js:68 | the kept entries are exactly those with the given user id |
| SessionRegistry.FindUserSessionsFound | opencti-platform/opencti-graphql/src/database/session.js:68-72 | the first matching entry holds the user's descriptors; with no match, the user owns no record |
| SessionRegistry.FindUserSessions | opencti-platform/opencti-graphql/src/database/session.js:66-73 | the descriptors of exactly the user's records in store order, and the empty sequence (no error) for a user without sessions |
| SessionRegistry.ConcatSessionsOfProject | opencti-platform/opencti-graphql/src/database/session.js:101 | flattening the selected entries describes the flattened selected groups |
| SessionRegistry.SelectedSessions | opencti-platform/opencti-graphql/src/database/session.js:99-102 | the selected entries hold exactly the descriptors of the selected users' records |
| SessionRegistry.ConcatSessions | opencti-platform/opencti-graphql/src/database/session.js:101 | `filter(selected).map(s => s.sessions).flat()`: a descriptor is in the result exactly when it is in the sessions of a selected entry |
| SessionRegistry.SelectedIds | opencti-platform/opencti-graphql/src/database/session.js:101 | `filter(selected)`: a user id is kept exactly when it is selected and has an entry |
| SessionRegistry.ConcatSessionsByUser | opencti-platform/opencti-graphql/src/database/session.js:101 | `map(s => s.sessions).flat()` over entries that each hold their user's sessions is the lookups of the selected users concatenated in entry order |
| SessionRegistry.SelectedIdsAreOwners | opencti-platform/opencti-graphql/src/database/session.js:99-101 | a user is among the selected entries of `findSessions` exactly when listed and owning a record |
| SessionRegistry.FindSessionsForUsers | opencti-platform/opencti-graphql/src/database/session.js:99-102 | the sessions of the listed users that have entries, user after user in entry order and each user's in store order; one descriptor per record of a listed user; every descriptor returned comes from such a record, so other users' sessions never appear |
| SessionRegistry.KillSession | opencti-platform/opencti-graphql/src/database/session.js:75-83 | always resolves; the session's key is gone unless the store is unreachable; the data is absent exactly when the store failed; otherwise it is the modelled store's payload, which says whether the key existed |
| SessionRegistry.KillSessionIdempotent | opencti-platform/opencti-graphql/src/database/session.js:75-83 | two kills of one session, each with its own outages: once a kill has reached the store, a second leaves the store unchanged and finds nothing; after a failed first kill, the second acts as the only one, so a transient outage followed by a success deletes the key |
| SessionRegistry.WithoutKeysThenKey | opencti-platform/opencti-graphql/src/database/session.js:79 | deleting some keys and then one more is deleting all of them |
| JsStrings.IndexOf | opencti-platform/opencti-graphql/src/database/session.js:92 | the first position where the separator occurs, and none exactly when it does not occur |
| JsStrings.SplitSecond | opencti-platform/opencti-graphql/src/database/session.js:92 | `split(sep)[1]` is undefined exactly when the separator does not occur, and never contains the separator |
| JsStrings.SplitSecondStripsPrefix | opencti-platform/opencti-graphql/src/database/session.js:92 | splitting `prefix + rest` on the prefix gives back `rest` when `rest` does not contain the prefix |
| SessionRegistry.SplitStoreKey | opencti-platform/opencti-graphql/src/database/session.js:92 | splitting a store key gives the session id the store prefixed |
| SessionRegistry.UserSessionIdsAreKeys | opencti-platform/opencti-graphql/src/database/session.js:87-88 | the ids of a user's sessions are well-formed keys present in the store |
| SessionRegistry.UserRecordsAreListed | opencti-platform/opencti-graphql/src/database/session.js:87-88 | every record of the user appears among those ids |
| SessionRegistry.RepliesPointwise | opencti-platform/opencti-graphql/src/database/session.js:93-94 | the j-th result is undefined when its key is unreachable; otherwise, with the modelled store's payload, it reports the key present exactly when no earlier kill had the same key |
| SessionRegistry.KillLoopStep | opencti-platform/opencti-graphql/src/database/session.js:90-95 | one turn of the loop keeps the invariant relating the store, the results and the ids passed so far |
| SessionRegistry.SessionIds | opencti-platform/opencti-graphql/src/database/session.js:88 | `sessions.map((s) => s.id)`: one id per descriptor, position by position |
| SessionRegistry.KillEach | opencti-platform/opencti-graphql/src/database/session.js:89-96 | one kill per key, in order, each with the prefix cut off; results in the same order and number; only the unreachable keys among them survive |
| SessionRegistry.UserKeysAreSessionIds | opencti-platform/opencti-graphql/src/database/session.js:87-88 | the ids read off the user's sessions are the store keys of exactly the user's records, in store order |
| SessionRegistry.KillUserSessions | opencti-platform/opencti-graphql/src/database/session.js:85-97 | runs over the store keys of the user's records in store order, with the same guarantees as KillEach; afterwards no record of the user survives unless its key was unreachable |
| JsValues.LogicalOr | opencti-platform/opencti-graphql/src/database/session.js:9 | the `or` of two values is one of its operands and is truthy exactly when one of them is |
| JsValues.Coalesce | opencti-platform/opencti-graphql/src/database/session.js:24 | `a ?? b` is one of its operands and is nullish exactly when both are |
| JsValues.CoalesceKeepsFalsy | opencti-platform/opencti-graphql/src/database/session.js:39 | `cookie_samesite ?? 'lax'` keeps an explicit falsy setting such as `false` or an empty string, where `||` would replace it with `'lax'` |
| JsValues.CoalesceFalseSameTruth | opencti-platform/opencti-graphql/src/database/session.js:24 | defaulting the session-cookie flag with `?? false` never changes how it tests |
| SessionConfig.CreateSessionMiddleware | opencti-platform/opencti-graphql/src/database/session.js:8-43 | Redis exactly when the manager is the string "shared", with the timeout as TTL; otherwise memory pruned hourly; the middleware shares that store; no cookie expiry in session-cookie mode, the timeout otherwise; the secret falls back to the admin password; SameSite defaults to "lax" |
| SessionConfig.RedisTtlMatchesCookie | opencti-platform/opencti-graphql/src/database/session.js:16-25 | with a shared store outside session-cookie mode, the store's TTL equals the cookie's expiry |
| SessionConfig.OnlySharedSelectsRedis | opencti-platform/opencti-graphql/src/database/session.js:22-23 | other spellings and types of the manager setting select the memory store |
| SessionConfig.EmptySecretFallsBack | opencti-platform/opencti-graphql/src/database/session.js:9 | an empty or absent session secret signs with the admin password |
| SessionConfig.ExplicitFalseCookieMode | opencti-platform/opencti-graphql/src/database/session.js:24-25 | an explicit `false` for session-cookie mode behaves as an absent setting |
| SummaryFilters.StartDate | opencti-platform/opencti-front/src/private/components/common/ai/AISummaryContainers.tsx:231-240 | "days-1" gives one day ago, "days-7" seven days ago and "months-1" one month ago, each exactly for that token; every other token gives no date |
| SummaryFilters.CreatedSince | opencti-platform/opencti-front/src/private/components/common/ai/AISummaryContainers.tsx:244 | the appended filter is a `created gte` bound whose single value is the start date, with no mode of its own |
| SummaryFilters.ComposeFilters | opencti-platform/opencti-front/src/private/components/common/ai/AISummaryContainers.tsx:241-246 | unchanged for a container or without a date; otherwise same mode and nested groups, the original filters untouched and one `created gte start` filter appended |
| SummaryFilters.ComposeThenDrop | opencti-platform/opencti-front/src/private/components/common/ai/AISummaryContainers.tsx:242-246 | dropping the appended filter recovers the input group exactly |
| SummaryFilters.ComposeAddsOneBound | opencti-platform/opencti-front/src/private/components/common/ai/AISummaryContainers.tsx:241-246 | the number of `created gte` filters grows by one exactly when a bound is added, and by zero otherwise |
| SummaryFilters.BoundCarriesTokenDate | opencti-platform/opencti-front/src/private/components/common/ai/AISummaryContainers.tsx:231-246 | for each of the three tokens, the appended filter carries that token's date |
| AiSummary.InitialState | opencti-platform/opencti-front/src/private/components/common/ai/AISummaryContainers.tsx:176-182 | one element for a container and ten otherwise; the relative period `none`, which yields no date; no content, answer or error; the default language |
| AiSummary.QueryParams | opencti-platform/opencti-front/src/private/components/common/ai/AISummaryContainers.tsx:204-211 | the panel's own filters, the current count and language, newest first by creation, no forced refresh |
| AiSummary.Mount | opencti-platform/opencti-front/src/private/components/common/ai/AISummaryContainers.tsx:204-214 | the state is the initial state with loading on; the first query is `queryParams` over that state: the unmodified filters, the initial count, newest first by creation, the default language and no forced refresh |
| AiSummary.RetryRepeatsMountQuery | opencti-platform/opencti-front/src/private/components/common/ai/AISummaryContainers.tsx:204-256 | Retry after mounting sends the mount query again, only now with a forced refresh |
| AiSummary.OnInitialData | opencti-platform/opencti-front/src/private/components/common/ai/AISummaryContainers.tsx:214-221 | with a summary: error cleared, answer kept, content set to its result or "", loading over; without one, nothing changes |
| AiSummary.OnInitialError | opencti-platform/opencti-front/src/private/components/common/ai/AISummaryContainers.tsx:222-226 | the message is the first error's, and absent exactly when there is no error; loading ends; nothing else changes |
| AiSummary.InitialErrorOutlivesRefetch | opencti-platform/opencti-front/src/private/components/common/ai/AISummaryContainers.tsx:214-263 | after the initial query fails, an answer to a refetch keeps the error message, while an answer to the initial query would clear it |
| AiSummary.RefetchVariables | opencti-platform/opencti-front/src/private/components/common/ai/AISummaryContainers.tsx:229-256 | the new count, the filters composed with the period's start date, newest first by creation, and a forced refresh |
| AiSummary.Refetch | opencti-platform/opencti-front/src/private/components/common/ai/AISummaryContainers.tsx:229-264 | loading starts and only loading changes; the request is the refetch variables |
| AiSummary.OnRefetchData | opencti-platform/opencti-front/src/private/components/common/ai/AISummaryContainers.tsx:256-263 | updates as the initial answer does, except that an earlier error message is kept |
| AiSummary.RefetchWithoutPeriodIsForcedInitialQuery | opencti-platform/opencti-front/src/private/components/common/ai/AISummaryContainers.tsx:241-256 | without a start date, or for a container, a refetch sends the initial query's variables with the new count and a forced refresh |
| AiSummary.ChangeFirst | opencti-platform/opencti-front/src/private/components/common/ai/AISummaryContainers.tsx:266-269 | the count is stored, loading starts and nothing else changes; the request is the refetch variables for the new count over the current period |
| AiSummary.ChangeRelative | opencti-platform/opencti-front/src/private/components/common/ai/AISummaryContainers.tsx:271-274 | the period is stored, loading starts and nothing else changes; the request is the refetch variables for the current count over the new period |
| AiSummary.ChangesCommute | opencti-platform/opencti-front/src/private/components/common/ai/AISummaryContainers.tsx:266-274 | choosing a count then a period, or the reverse, ends in the same state and the same last query |
| AiSummary.Act | opencti-platform/opencti-front/src/private/components/common/ai/AISummaryContainers.tsx:266-274 | each control, including Retry, refetches with the count and period the panel holds afterwards; loading starts and content, answer, error and language are untouched |
| AiSummary.LanguageStaysDefault | opencti-platform/opencti-front/src/private/components/common/ai/AISummaryContainers.tsx:182 | after any run of controls, the state and the last query carry the default language |
| AiSummary.RetryAfterMountKeepsFilters | opencti-platform/opencti-front/src/private/components/common/ai/AISummaryContainers.tsx:241 | Retry right after mounting sends the panel's filters unchanged with the initial count |
| AiSummary.ContainerIgnoresPeriod | opencti-platform/opencti-front/src/private/components/common/ai/AISummaryContainers.tsx:241 | inside a single container, every refetch sends the panel's filters whatever the period |

## Left out

- SessionRegistry.FindSessions: makes no claim about the order of entries. The code takes it from `Object.entries` over the group-by result, and the model only says each user appears once.
- SessionRegistry.KillUserSessions: requires a non-empty store prefix and every store key to be the prefix followed by an id that does not contain it. `split` with an empty or repeated prefix is not modelled.
- SessionRegistry.KillSession: assumes the store deletes the key `prefix + id`, as the shared store does. What the memory store does with the id is not part of this model. The data handed to the destroy callback is also an assumption about the store, whose code is not part of this model: nothing on failure, and `{existed}` on success. The code only passes that data on, so the payloads stated by KillSession, RepliesPointwise, KillEach and KillUserSessions hold for the modelled store, not for every store.
- SessionCodec.RoundMillisToSeconds: integer milliseconds only. It does not model floating-point division for huge values. It also leaves out the odd max ages: an absent `originalMaxAge` gives `NaN` and a `null` one gives 0. A record without a `cookie` makes the `all` callback throw, so `findSessions` never resolves; the model gives every record a cookie with a max age.
- The express-session middleware and the internals of the memory and Redis stores are not part of this model. This covers TTL expiry, the hourly pruning itself and how cookie flags take effect. The store is reduced to `all` and `destroy`.
- A failing `all` is not modelled: `findSessions` ignores the error argument, the filter then throws inside the `all` callback on the undefined result, so `findSessions` never resolves. Store failures are modelled for `destroy` only.
- AiSummary.OnInitialError: assumes every rejection carries `res.errors`. The handler reads `error.res` and `errors.at(0)` unguarded, so a rejection without them (a network failure, say) makes the handler throw; then no message is set and loading stays on. That path is not modelled.
- AiSummary.Act: controls are not gated. The model lets every control fire in every state, and so do the lemmas built on it, including InitialErrorOutlivesRefetch. The panel disables the selectors while loading, shows Retry only when not loading, has no selectors for a single container and renders only the warning after an initial error with a message.
- Promise and callback asynchrony is not modelled. Each call is a function, and the only ordering kept is the sequential kill loop.
- `booleanConf`, `conf.get` and the `OPENCTI_SESSION` cookie name come from the configuration module, which is not part of this model. They enter as fields of `Config`.
- `daysAgo`/`monthsAgo` date arithmetic is left out: dates are symbolic and always truthy.
- Other panel internals left out:
  - `cleanHtmlTags`;
  - the content subscription;
  - copying to the clipboard;
  - HTML rendering;
  - `fetchQuery`;
  - React's `useState`/`useEffect`/`useCallback` machinery.
- The panel is modelled with the props of its first render. Both the initial query and `refetch` are created once with empty dependency lists, so later prop changes do not reach them.
- `setLanguage` is handed to the rendering component but never called in this file, so the language never changes (`LanguageStaysDefault`).
- A failed refetch has no handler in the code. Nothing in the state reacts to it, so no member models it.
- The filter chips (`FilterValues.tsx`), the observable deletion dialog and the JSON ingestion schema registration are rendering and wiring outside these two cores.

=== FILE: ai_summary.dfy ===
/**
 The AI summary panel over related containers: its state, the query it sends when it
 mounts, the refetch its controls trigger, and how responses and errors update it.
 Each request is returned as a value; sending it and awaiting the answer are left to
 the caller.
 */
module AiSummary {
  import opened Wrappers
  import opened SummaryFilters

  /** What the panel is mounted with; the initial query and `refetch` both keep the values of the first render. */
  datatype SummaryProps = SummaryProps(busId: string, isContainer: bool, filters: FilterGroup, defaultLanguage: string)

  /** The `containersAskAiSummary` part of an answer; `result` may be absent. */
  datatype Summary = Summary(result: Option<string>, updatedAt: string)

  /** An answer to the summary query; `summary` is absent when the server returned none. */
  datatype QueryData = QueryData(summary: Option<Summary>)

  /** The variables of one summary query; `forceRefresh` is absent from the initial query. */
  datatype QueryVariables = QueryVariables(
    busId: string,
    first: int,
    filters: FilterGroup,
    orderBy: string,
    orderMode: string,
    language: string,
    forceRefresh: Option<bool>)

  /** The panel's state, with the loading flag it reports to its parent. */
  datatype SummaryState = SummaryState(
    first: int,
    relative: string,
    content: string,
    result: Option<QueryData>,
    errorMessage: Option<string>,
    language: string,
    loading: bool)

  /** A state change together with the query it sends. */
  datatype Step = Step(state: SummaryState, request: QueryVariables)

  /** One entry of a failed request's `errors`. */
  datatype RelayErrorEntry = RelayErrorEntry(message: string)

  const NoPeriod: string := "none"

  /** The state right after mounting: one container or the last ten, no period, nothing loaded. */
  function InitialState(props: SummaryProps): (s: SummaryState)
    ensures s.first == (if props.isContainer then 1 else 10)
    ensures s.relative == NoPeriod && StartDate(s.relative).None?
    ensures s.content == "" && s.result.None? && s.errorMessage.None?
    ensures s.language == props.defaultLanguage
  {
    SummaryState(if props.isContainer then 1 else 10, NoPeriod, "", None, None, props.defaultLanguage, false)
  }

  /** `queryParams`: the panel's own filters, newest first, without `forceRefresh`. */
  function QueryParams(props: SummaryProps, s: SummaryState): (v: QueryVariables)
    ensures v.filters == props.filters && v.busId == props.busId
    ensures v.first == s.first && v.language == s.language
    ensures v.orderBy == "created" && v.orderMode == "desc"
    ensures v.forceRefresh.None?
  {
    QueryVariables(props.busId, s.first, props.filters, "created", "desc", s.language, None)
  }

  /** Mounting: loading starts and the initial query goes out. */
  function Mount(props: SummaryProps): (step: Step)
    ensures step.state.loading
    ensures step.request.filters == props.filters
    ensures step.request.first == (if props.isContainer then 1 else 10)
    ensures step.request.forceRefresh.None?
    ensures step == Step(InitialState(props).(loading := true), QueryParams(props, InitialState(props)))
  {
    var s := InitialState(props);
    Step(s.(loading := true), QueryParams(props, s))
  }

  /**
   The variables of `refetch(newFirst, newRelative)`: `newFirst` elements, the filters
   composed with the period's start date, newest first, and a forced refresh.
   */
  function RefetchVariables(props: SummaryProps, language: string, newFirst: int, newRelative: string): (v: QueryVariables)
    ensures v.first == newFirst && v.busId == props.busId && v.language == language
    ensures v.filters == ComposeFilters(props.isContainer, props.filters, StartDate(newRelative))
    ensures v.orderBy == "created" && v.orderMode == "desc"
    ensures v.forceRefresh == Some(true)
  {
    var finalFilters := ComposeFilters(props.isContainer, props.filters, StartDate(newRelative));
    QueryVariables(props.busId, newFirst, finalFilters, "created", "desc", language, Some(true))
  }

  /** `refetch`: loading starts and the query goes out; `first` and `relative` are left as they are. */
  function Refetch(props: SummaryProps, s: SummaryState, newFirst: int, newRelative: string): (step: Step)
    ensures step.state == s.(loading := true)
    ensures step.request == RefetchVariables(props, s.language, newFirst, newRelative)
  {
    Step(s.(loading := true), RefetchVariables(props, s.language, newFirst, newRelative))
  }

  /** `changeFirst(n)`: remember `n` and refetch `n` elements over the current period. */
  function ChangeFirst(props: SummaryProps, s: SummaryState, newFirst: int): (step: Step)
    ensures step.state == s.(first := newFirst, loading := true)
    ensures step.request == RefetchVariables(props, s.language, newFirst, s.relative)
    ensures step.request.filters == ComposeFilters(props.isContainer, props.filters, StartDate(s.relative))
  {
    Refetch(props, s.(first := newFirst), newFirst, s.relative)
  }

  /** `changeRelative(r)`: remember `r` and refetch the current number of elements over period `r`. */
  function ChangeRelative(props: SummaryProps, s: SummaryState, newRelative: string): (step: Step)
    ensures step.state == s.(relative := newRelative, loading := true)
    ensures step.request == RefetchVariables(props, s.language, s.first, newRelative)
    ensures step.request.filters == ComposeFilters(props.isContainer, props.filters, StartDate(newRelative))
  {
    Refetch(props, s.(relative := newRelative), s.first, newRelative)
  }

  /**
   An answer to the initial query: with a summary, the error is cleared, the answer
   kept, the content set to its result (empty when absent) and loading ends; without
   one nothing changes.
   */
  function OnInitialData(s: SummaryState, data: QueryData): (s': SummaryState)
    ensures data.summary.None? ==> s' == s
    ensures data.summary.Some? ==>
      && s'.errorMessage.None? && s'.result == Some(data) && !s'.loading
      && s'.content == data.summary.value.result.GetOr("")
    ensures s'.first == s.first && s'.relative == s.relative && s'.language == s.language
  {
    match data.summary
    case None => s
    case Some(summary) =>
      s.(errorMessage := None, result := Some(data), content := summary.result.GetOr(""), loading := false)
  }

  /** A failed initial query: the first error's message (none when the list is empty) and loading ends. */
  function OnInitialError(s: SummaryState, errors: seq<RelayErrorEntry>): (s': SummaryState)
    ensures s'.errorMessage.Some? <==> |errors| > 0
    ensures |errors| > 0 ==> s'.errorMessage == Some(errors[0].message)
    ensures !s'.loading
    ensures s' == s.(errorMessage := s'.errorMessage, loading := false)
  {
    s.(errorMessage := if |errors| > 0 then Some(errors[0].message) else None, loading := false)
  }

  /**
   Only an answer to the initial query clears its error: once that query has failed, an
   answer to a later refetch leaves the warning in place. The handlers are taken on their
   own: the panel hides its controls behind the warning, so this is an over-approximation.
   */
  lemma InitialErrorOutlivesRefetch(s: SummaryState, errors: seq<RelayErrorEntry>, data: QueryData)
    requires |errors| > 0
    ensures OnRefetchData(OnInitialError(s, errors), data).errorMessage == Some(errors[0].message)
    ensures data.summary.Some? ==> OnInitialData(OnInitialError(s, errors), data).errorMessage.None?
  {
  }

  /**
   An answer to a refetch: as for the initial query, except that an earlier error
   message is kept.
   */
  function OnRefetchData(s: SummaryState, data: QueryData): (s': SummaryState)
    ensures data.summary.None? ==> s' == s
    ensures s'.errorMessage == s.errorMessage
    ensures data.summary.Some? ==> s' == OnInitialData(s, data).(errorMessage := s.errorMessage)
  {
    match data.summary
    case None => s
    case Some(summary) =>
      s.(result := Some(data), content := summary.result.GetOr(""), loading := false)
  }

  /**
   A refetch whose period gives no start date sends the initial query's variables with
   the new element count and a forced refresh, and so does any refetch of a single container.
   */
  lemma RefetchWithoutPeriodIsForcedInitialQuery(props: SummaryProps, s: SummaryState, newFirst: int, newRelative: string)
    requires props.isContainer || newRelative !in {LastDay, LastWeek, LastMonth}
    ensures Refetch(props, s, newFirst, newRelative).request ==
            QueryParams(props, s).(first := newFirst, forceRefresh := Some(true))
  {
  }

  /** Picking an element count and then a period, or the other way round, ends in the same state and the same last query. */
  lemma ChangesCommute(props: SummaryProps, s: SummaryState, n: int, r: string)
    ensures var a := ChangeFirst(props, ChangeRelative(props, s, r).state, n);
      var b := ChangeRelative(props, ChangeFirst(props, s, n).state, r);
      a.state == b.state && a.request == b.request
  {
  }

  /**
   What a user does with the panel's controls. Controls are not gated: the model lets any
   control fire in any state, although the panel disables them while loading, has no
   selectors for a single container and shows only the warning after an initial error.
   */
  datatype Control = PickFirst(n: int) | PickRelative(r: string) | Retry

  /** The step one control takes: the two selectors, or the Retry button (`refetch(first, relative)`). */
  function Act(props: SummaryProps, s: SummaryState, c: Control): (step: Step)
    ensures step.state.first == (if c.PickFirst? then c.n else s.first)
    ensures step.state.relative == (if c.PickRelative? then c.r else s.relative)
    ensures step.request == RefetchVariables(props, s.language, step.state.first, step.state.relative)
    ensures step.state == s.(first := step.state.first, relative := step.state.relative, loading := true)
  {
    match c
    case PickFirst(n) => ChangeFirst(props, s, n)
    case PickRelative(r) => ChangeRelative(props, s, r)
    case Retry => Refetch(props, s, s.first, s.relative)
  }

  /** The state after mounting and a run of controls, with the last query sent. */
  function Apply(props: SummaryProps, s: SummaryState, changes: seq<Control>): Step
    decreases |changes|
  {
    if changes == [] then Step(s, QueryParams(props, s))
    else
      var before := Apply(props, s, changes[..|changes| - 1]);
      Act(props, before.state, changes[|changes| - 1])
  }

  /** The controls never touch the language: every query the panel sends uses the mount-time default. */
  lemma {:induction false} LanguageStaysDefault(props: SummaryProps, changes: seq<Control>)
    ensures var s := Apply(props, InitialState(props), changes);
      s.state.language == props.defaultLanguage && s.request.language == props.defaultLanguage
    decreases |changes|
  {
    if changes != [] {
      LanguageStaysDefault(props, changes[..|changes| - 1]);
    }
  }

  /**
   Retry after mounting sends the mount query again, now with a forced refresh: the
   initial state has no period, so the refetch adds no date bound.
   */
  lemma RetryRepeatsMountQuery(props: SummaryProps)
    ensures var mount := Mount(props);
      Act(props, mount.state, Retry).request == mount.request.(forceRefresh := Some(true))
  {
  }

  /** Retry right after mounting refetches the initial selection, with the panel's filters unchanged. */
  lemma RetryAfterMountKeepsFilters(props: SummaryProps)
    ensures var step := Act(props, InitialState(props), Retry);
      step.request.filters == props.filters && step.request.first == InitialState(props).first
  {
  }

  /** Inside a single container the period is ignored: every refetch sends the panel's filters. */
  lemma ContainerIgnoresPeriod(props: SummaryProps, language: string, n: int, r: string)
    requires props.isContainer
    ensures RefetchVariables(props, language, n, r).filters == props.filters
  {
  }
}

=== FILE: js_strings.dfy ===
/**
 The one piece of JavaScript string behaviour the session registry relies on:
 `s.split(sep)[1]` for a non-empty separator.
 */
module JsStrings {
  import opened Wrappers

  /** `sep` occurs in `s` starting at position `j`. */
  predicate OccursAt(s: string, sep: string, j: int) {
    0 <= j && j + |sep| <= |s| && s[j..j + |sep|] == sep
  }

  predicate Contains(s: string, sep: string) {
    exists j | 0 <= j <= |s| :: OccursAt(s, sep, j)
  }

  /** The first occurrence of `sep` in `s` at or after `from` (`s.indexOf(sep, from)`, with None for -1). */
  function IndexOfFrom(s: string, sep: string, from: nat): (r: Option<nat>)
    requires |sep| > 0
    ensures r.Some? ==> from <= r.value && OccursAt(s, sep, r.value)
    ensures r.Some? ==> forall j :: from <= j < r.value ==> !OccursAt(s, sep, j)
    ensures r.None? ==> forall j :: from <= j ==> !OccursAt(s, sep, j)
    decreases |s| - from
  {
    if from + |sep| > |s| then None
    else if s[from..from + |sep|] == sep then Some(from)
    else IndexOfFrom(s, sep, from + 1)
  }

  function IndexOf(s: string, sep: string): (r: Option<nat>)
    requires |sep| > 0
    ensures r.None? <==> !Contains(s, sep)
    ensures r.Some? ==> OccursAt(s, sep, r.value) && forall j :: 0 <= j < r.value ==> !OccursAt(s, sep, j)
  {
    IndexOfFrom(s, sep, 0)
  }

  /** A prefix of `s` that ends before the first occurrence of `sep` does not contain `sep`. */
  lemma {:induction false} NoOccurrenceBefore(s: string, sep: string, j: nat)
    requires |sep| > 0 && j <= |s|
    requires forall k :: 0 <= k < j ==> !OccursAt(s, sep, k)
    ensures !Contains(s[..j], sep)
  {
    forall k | OccursAt(s[..j], sep, k)
      ensures false
    {
      assert s[..j][k..k + |sep|] == s[k..k + |sep|];
      assert OccursAt(s, sep, k);
    }
  }

  /**
   `s.split(sep)[1]`: the piece between the first and the second occurrence of `sep`
   (or up to the end when there is no second one); None (`undefined`) when `sep` does
   not occur at all.
   */
  function SplitSecond(s: string, sep: string): (piece: Option<string>)
    requires |sep| > 0
    ensures piece.None? <==> !Contains(s, sep)
    ensures piece.Some? ==> !Contains(piece.value, sep)
  {
    match IndexOf(s, sep)
    case None => None
    case Some(i) =>
      var rest := s[i + |sep|..];
      match IndexOf(rest, sep)
      case None => Some(rest)
      case Some(j) =>
        NoOccurrenceBefore(rest, sep, j);
        Some(rest[..j])
  }

  /** Splitting `prefix + rest` on the prefix gives back `rest` when `rest` is free of it. */
  lemma {:induction false} SplitSecondStripsPrefix(prefix: string, rest: string)
    requires |prefix| > 0
    requires !Contains(rest, prefix)
    ensures SplitSecond(prefix + rest, prefix) == Some(rest)
  {
    var s := prefix + rest;
    assert s[0..|prefix|] == prefix;
    assert OccursAt(s, prefix, 0);
    assert IndexOf(s, prefix) == Some(0);
    assert s[|prefix|..] == rest;
  }
}

=== FILE: js_values.dfy ===
/**
 The few JavaScript value semantics the configuration code relies on: truthiness,
 `a || b` and `a ?? b`. Numbers are whole numbers here (no NaN).
 */
module JsValues {
  datatype JsValue = Undefined | Null | Bool(b: bool) | Num(n: int) | Str(s: string)

  /** `null` and `undefined`, the only values `??` replaces. */
  predicate Nullish(v: JsValue) {
    v.Undefined? || v.Null?
  }

  /** JavaScript's `ToBoolean`: `false`, `0`, `""`, `null` and `undefined` are falsy. */
  predicate Truthy(v: JsValue) {
    match v
    case Undefined => false
    case Null => false
    case Bool(b) => b
    case Num(n) => n != 0
    case Str(s) => s != ""
  }

  /** `a || b`: the first operand when it is truthy, the second otherwise. */
  function LogicalOr(a: JsValue, b: JsValue): (r: JsValue)
    ensures r == a || r == b
    ensures Truthy(r) <==> Truthy(a) || Truthy(b)
    ensures Truthy(b) ==> Truthy(r)
  {
    if Truthy(a) then a else b
  }

  /** `a ?? b`: the first operand unless it is `null` or `undefined`. */
  function Coalesce(a: JsValue, b: JsValue): (r: JsValue)
    ensures r == a || r == b
    ensures Nullish(r) <==> Nullish(a) && Nullish(b)
  {
    if Nullish(a) then b else a
  }

  /** `??` keeps an explicit falsy setting where `||` would discard it. */
  lemma CoalesceKeepsFalsy(a: JsValue, b: JsValue)
    requires !Nullish(a) && !Truthy(a) && Truthy(b)
    ensures Coalesce(a, b) == a
    ensures LogicalOr(a, b) == b
    ensures Coalesce(a, b) != LogicalOr(a, b)
  {
  }

  /** Defaulting a flag with `?? false` never changes how it tests. */
  lemma CoalesceFalseSameTruth(a: JsValue)
    ensures Truthy(Coalesce(a, Bool(false))) <==> Truthy(a)
  {
  }
}

=== FILE: session_codec.dfy ===
/**
 Turning one raw session record into a descriptor (the inner `map` of `findSessions`).
 */
module SessionCodec {
  import opened SessionTypes

  /**
   `Math.round(ms / 1000)` on an integer number of milliseconds: the nearest whole
   second, halves rounded up (towards positive infinity, as `Math.round` does for
   negative halves too). Dafny's `/` on a positive divisor is floor division.
   */
  function RoundMillisToSeconds(ms: int): (s: int)
    ensures 1000 * s - 500 <= ms < 1000 * s + 500
  {
    (ms + 500) / 1000
  }

  /** The rounding is the only whole number of seconds within half a second of `ms`. */
  lemma {:induction false} RoundMillisToSecondsUnique(ms: int, s: int)
    requires 1000 * s - 500 <= ms < 1000 * s + 500
    ensures RoundMillisToSeconds(ms) == s
  {
    var t := RoundMillisToSeconds(ms);
    assert 1000 * t - 500 <= ms < 1000 * t + 500;
    assert 1000 * (t - s) < 1000 && 1000 * (s - t) < 1000;
  }

  /** The values the registry's rounding is expected to produce. */
  lemma RoundMillisToSecondsExamples()
    ensures RoundMillisToSeconds(499) == 0
    ensures RoundMillisToSeconds(500) == 1
    ensures RoundMillisToSeconds(999) == 1
    ensures RoundMillisToSeconds(1500) == 2
    ensures RoundMillisToSeconds(60000) == 60
    ensures RoundMillisToSeconds(-500) == 0
    ensures RoundMillisToSeconds(-501) == -1
  {
  }

  /** The descriptor of one record that has a user. */
  function Describe(r: SessionRecord): (d: SessionDescriptor)
    requires HasUser(r)
    ensures d.id == r.redisKeyId
    ensures d.created == r.user.value.sessionCreation
    ensures d.ttl == r.redisKeyTtl
    ensures 1000 * d.originalMaxAge - 500 <= r.cookie.originalMaxAge < 1000 * d.originalMaxAge + 500
  {
    SessionDescriptor(r.redisKeyId, r.user.value.sessionCreation, r.redisKeyTtl,
                      RoundMillisToSeconds(r.cookie.originalMaxAge))
  }

  /** `recs.map(describe)`: one descriptor per record, in the same order. */
  function MapDescribe(recs: seq<SessionRecord>): (ds: seq<SessionDescriptor>)
    requires AllHaveUser(recs)
    ensures |ds| == |recs|
    ensures forall i :: 0 <= i < |recs| ==> ds[i] == Describe(recs[i])
  {
    seq(|recs|, i requires 0 <= i < |recs| => Describe(recs[i]))
  }

  /** Describing a concatenation describes each part. */
  lemma {:induction false} MapDescribeAppend(a: seq<SessionRecord>, b: seq<SessionRecord>)
    requires AllHaveUser(a) && AllHaveUser(b)
    ensures AllHaveUser(a + b)
    ensures MapDescribe(a + b) == MapDescribe(a) + MapDescribe(b)
  {
    var l, r := MapDescribe(a + b), MapDescribe(a) + MapDescribe(b);
    assert |l| == |r|;
    forall i | 0 <= i < |l|
      ensures l[i] == r[i]
    {
      if i < |a| {
        assert (a + b)[i] == a[i];
      } else {
        assert (a + b)[i] == b[i - |a|];
      }
    }
  }

  /** Every descriptor comes from one of the described records. */
  lemma {:induction false} MapDescribeOrigin(recs: seq<SessionRecord>, d: SessionDescriptor)
    requires AllHaveUser(recs)
    requires d in MapDescribe(recs)
    ensures exists r :: r in recs && d == Describe(r)
  {
    var ds := MapDescribe(recs);
    var i :| 0 <= i < |ds| && ds[i] == d;
    assert recs[i] in recs;
  }

  /** Removing the element at `j` removes one copy of it from the multiset. */
  lemma {:induction false} MultisetRemoveAt<T>(b: seq<T>, j: nat)
    requires j < |b|
    ensures multiset(b[..j] + b[j + 1..]) == multiset(b) - multiset{b[j]}
  {
    assert b == b[..j] + [b[j]] + b[j + 1..];
  }

  /** Taking one record out of a sequence takes its descriptor out of the described sequence. */
  lemma {:induction false} MapDescribeRemoveAt(b: seq<SessionRecord>, j: nat)
    requires AllHaveUser(b) && j < |b|
    ensures AllHaveUser(b[..j] + b[j + 1..])
    ensures multiset(MapDescribe(b)) == multiset(MapDescribe(b[..j] + b[j + 1..])) + multiset{Describe(b[j])}
  {
    var b1, b2 := b[..j], b[j + 1..];
    assert b == b1 + [b[j]] + b2;
    MapDescribeAppend(b1, [b[j]]);
    MapDescribeAppend(b1 + [b[j]], b2);
    MapDescribeAppend(b1, b2);
  }

  /** Where the first record of `a` sits in a rearrangement `b` of it, and what is left of both. */
  lemma {:induction false} MatchFirst(a: seq<SessionRecord>, b: seq<SessionRecord>) returns (j: nat)
    requires a != [] && multiset(a) == multiset(b)
    ensures j < |b| && b[j] == a[0]
    ensures multiset(a[1..]) == multiset(b[..j] + b[j + 1..])
  {
    assert a == [a[0]] + a[1..];
    assert a[0] in multiset(b);
    j :| 0 <= j < |b| && b[j] == a[0];
    MultisetRemoveAt(b, j);
  }

  /** Describing a non-empty sequence describes its head, then its tail. */
  lemma {:induction false} MapDescribeCons(a: seq<SessionRecord>)
    requires AllHaveUser(a) && a != []
    ensures AllHaveUser(a[1..])
    ensures multiset(MapDescribe(a)) == multiset(MapDescribe(a[1..])) + multiset{Describe(a[0])}
  {
    assert a == [a[0]] + a[1..];
    MapDescribeAppend([a[0]], a[1..]);
    assert MapDescribe([a[0]]) == [Describe(a[0])];
  }

  /** Describing two arrangements of the same records yields two arrangements of the same descriptors. */
  lemma {:induction false} MapDescribePermutation(a: seq<SessionRecord>, b: seq<SessionRecord>)
    requires AllHaveUser(a) && AllHaveUser(b)
    requires multiset(a) == multiset(b)
    ensures multiset(MapDescribe(a)) == multiset(MapDescribe(b))
    decreases |a|
  {
    if a == [] {
      assert |b| == |multiset(b)| == 0;
    } else {
      var j := MatchFirst(a, b);
      MapDescribeRemoveAt(b, j);
      MapDescribeCons(a);
      MapDescribePermutation(a[1..], b[..j] + b[j + 1..]);
    }
  }
}

=== FILE: session_config.dfy ===
/**
 How the API server sets up its session middleware: which store holds the sessions,
 when the session cookie expires, and which secret signs it. Configuration values
 are whatever the configuration files hold, hence `JsValue`.
 */
module SessionConfig {
  import opened JsValues

  /** The configuration entries read while setting up sessions. */
  datatype Config = Config(
    sessionManager: JsValue,  // app:session_manager
    sessionSecret: JsValue,   // app:session_secret
    adminPassword: JsValue,   // app:admin:password
    sessionTimeout: JsValue,  // app:session_timeout
    sessionCookie: JsValue,   // app:session_cookie
    cookieSecure: bool,       // app:https_cert:cookie_secure, already read as a boolean
    cookieSameSite: JsValue,  // app:https_cert:cookie_samesite
    sessionName: string)      // the session cookie's name

  /** How often the in-memory store prunes expired sessions: one hour, in milliseconds. */
  const MemoryCheckPeriod: nat := 3600000

  /** The store behind the sessions: shared through Redis, or local to the process. */
  datatype StoreChoice = RedisStore(ttl: JsValue) | MemoryStore(checkPeriod: nat)

  datatype CookieOptions = CookieOptions(expires: JsValue, secure: bool, sameSite: JsValue)

  /** The options handed to the session middleware. */
  datatype SessionOptions = SessionOptions(
    name: string,
    store: StoreChoice,
    secret: JsValue,
    proxy: bool,
    rolling: bool,
    saveUninitialized: bool,
    resave: bool,
    cookie: CookieOptions)

  /** The store and the middleware built on it; the registry reads and deletes through `store`. */
  datatype Middleware = Middleware(store: StoreChoice, session: SessionOptions)

  /**
   `createSessionMiddleware`: the Redis store exactly when the manager is the string
   `"shared"`, the hourly-pruned memory store otherwise; the middleware uses that same
   store. In session-cookie mode the cookie gets no expiry, otherwise it expires after
   the session timeout. The secret is the session secret, or the admin password when the
   session secret is falsy.
   */
  function CreateSessionMiddleware(cfg: Config): (m: Middleware)
    ensures m.store.RedisStore? <==> cfg.sessionManager == Str("shared")
    ensures m.store.RedisStore? ==> m.store.ttl == cfg.sessionTimeout
    ensures m.store.MemoryStore? ==> m.store.checkPeriod == 60 * 60 * 1000
    ensures m.session.store == m.store
    ensures Truthy(cfg.sessionCookie) ==> m.session.cookie.expires == Undefined
    ensures !Truthy(cfg.sessionCookie) ==> m.session.cookie.expires == cfg.sessionTimeout
    ensures Truthy(cfg.sessionSecret) ==> m.session.secret == cfg.sessionSecret
    ensures !Truthy(cfg.sessionSecret) ==> m.session.secret == cfg.adminPassword
    ensures Nullish(cfg.cookieSameSite) ==> m.session.cookie.sameSite == Str("lax")
    ensures !Nullish(cfg.cookieSameSite) ==> m.session.cookie.sameSite == cfg.cookieSameSite
    ensures m.session.cookie.secure == cfg.cookieSecure && m.session.name == cfg.sessionName
    ensures m.session.proxy && m.session.rolling && !m.session.saveUninitialized && !m.session.resave
  {
    var store := if cfg.sessionManager == Str("shared") then RedisStore(cfg.sessionTimeout)
                 else MemoryStore(MemoryCheckPeriod);
    var isSessionCookie := Coalesce(cfg.sessionCookie, Bool(false));
    CoalesceFalseSameTruth(cfg.sessionCookie);
    var sessionTimeout := if Truthy(isSessionCookie) then Undefined else cfg.sessionTimeout;
    var secret := LogicalOr(cfg.sessionSecret, cfg.adminPassword);
    Middleware(store, SessionOptions(
      cfg.sessionName, store, secret, true, true, false, false,
      CookieOptions(sessionTimeout, cfg.cookieSecure, Coalesce(cfg.cookieSameSite, Str("lax")))))
  }

  /**
   Outside session-cookie mode, the shared store's TTL and the cookie's expiry are the
   same configured value; in session-cookie mode the cookie has no expiry while the store
   still gets the timeout. How the store and the middleware read that value is not modelled.
   */
  lemma RedisTtlMatchesCookie(cfg: Config)
    requires cfg.sessionManager == Str("shared")
    ensures var m := CreateSessionMiddleware(cfg);
      !Truthy(cfg.sessionCookie) ==> m.store.ttl == m.session.cookie.expires
    ensures var m := CreateSessionMiddleware(cfg);
      Truthy(cfg.sessionCookie) ==> m.session.cookie.expires == Undefined && m.store.ttl == cfg.sessionTimeout
  {
  }

  /** Only the exact string `"shared"` selects Redis: other spellings and types fall back to memory. */
  lemma OnlySharedSelectsRedis(cfg: Config)
    requires cfg.sessionManager in {Str("Shared"), Str("shared "), Bool(true), Undefined}
    ensures CreateSessionMiddleware(cfg).store == MemoryStore(MemoryCheckPeriod)
  {
  }

  /** Setting the session secret to an empty string signs with the admin password. */
  lemma EmptySecretFallsBack(cfg: Config)
    requires cfg.sessionSecret in {Str(""), Undefined, Null}
    ensures CreateSessionMiddleware(cfg).session.secret == cfg.adminPassword
  {
  }

  /** An explicit `false` for session-cookie mode behaves as the setting being absent. */
  lemma ExplicitFalseCookieMode(cfg: Config)
    ensures CreateSessionMiddleware(cfg.(sessionCookie := Bool(false))) ==
            CreateSessionMiddleware(cfg.(sessionCookie := Undefined))
  {
  }
}

=== FILE: session_grouping.dfy ===
/**
 The filter-then-group-by at the heart of `findSessions`: keep the records that have a
 user, then gather them by `user.id` in enumeration order (ramda's `groupBy`).
 */
module SessionGrouping {
  import opened SessionTypes

  /** Which users a query is about: all of them, or those whose id is in `ids`. */
  datatype Selection = AllUsers | Users(ids: seq<string>)

  predicate Selects(sel: Selection, userId: string) {
    sel.AllUsers? || userId in sel.ids
  }

  /** A record is kept when it has a user and that user is selected. */
  predicate KeptBy(r: SessionRecord, sel: Selection) {
    r.user.Some? && Selects(sel, r.user.value.id)
  }

  /** The records kept by `sel`, in enumeration order. */
  function RecordsWhere(recs: seq<SessionRecord>, sel: Selection): (kept: seq<SessionRecord>)
    ensures forall r :: r in kept <==> r in recs && KeptBy(r, sel)
    ensures |kept| <= |recs|
    decreases |recs|
  {
    if recs == [] then []
    else
      var last := recs[|recs| - 1];
      RecordsWhere(recs[..|recs| - 1], sel) + (if KeptBy(last, sel) then [last] else [])
  }

  /** The records of one user, in enumeration order. */
  function RecordsOf(recs: seq<SessionRecord>, userId: string): (owned: seq<SessionRecord>)
    ensures forall r :: r in owned <==> r in recs && OwnedBy(r, userId)
  {
    RecordsWhere(recs, Users([userId]))
  }

  lemma {:induction false} RecordsWhereSnoc(recs: seq<SessionRecord>, r: SessionRecord, sel: Selection)
    ensures RecordsWhere(recs + [r], sel) == RecordsWhere(recs, sel) + (if KeptBy(r, sel) then [r] else [])
  {
    assert (recs + [r])[..|recs|] == recs;
  }

  /** Filtering out anonymous records first changes no selection. */
  lemma {:induction false} RecordsWhereAfterWithUser(recs: seq<SessionRecord>, sel: Selection)
    ensures RecordsWhere(RecordsWhere(recs, AllUsers), sel) == RecordsWhere(recs, sel)
    decreases |recs|
  {
    if recs != [] {
      var init, last := recs[..|recs| - 1], recs[|recs| - 1];
      assert recs == init + [last];
      var w := RecordsWhere(init, AllUsers);
      var tail := if KeptBy(last, sel) then [last] else [];
      calc {
        RecordsWhere(RecordsWhere(recs, AllUsers), sel);
        { RecordsWhereSnoc(init, last, AllUsers); }
        RecordsWhere(w + (if HasUser(last) then [last] else []), sel);
        { if HasUser(last) { RecordsWhereSnoc(w, last, sel); } else { assert w + [] == w; } }
        RecordsWhere(w, sel) + tail;
        { RecordsWhereAfterWithUser(init, sel); }
        RecordsWhere(init, sel) + tail;
        { RecordsWhereSnoc(init, last, sel); }
        RecordsWhere(recs, sel);
      }
    }
  }

  /** The records of one user gathered under that user's id. */
  datatype Group = Group(key: string, members: seq<SessionRecord>)

  /** The position of the group keyed `k`, or `|gs|` when there is none. */
  function KeyIndex(gs: seq<Group>, k: string): (i: nat)
    ensures i <= |gs|
    ensures i < |gs| ==> gs[i].key == k
    ensures forall j :: 0 <= j < i ==> gs[j].key != k
  {
    if gs == [] then 0
    else if gs[0].key == k then 0
    else 1 + KeyIndex(gs[1..], k)
  }

  /** Only the keys matter to `KeyIndex`. */
  lemma {:induction false} KeyIndexSameKeys(gs: seq<Group>, hs: seq<Group>, k: string)
    requires |gs| == |hs|
    requires forall i :: 0 <= i < |gs| ==> gs[i].key == hs[i].key
    ensures KeyIndex(gs, k) == KeyIndex(hs, k)
    decreases |gs|
  {
    if gs != [] && gs[0].key != k {
      KeyIndexSameKeys(gs[1..], hs[1..], k);
    }
  }

  /** Appending a group does not move the groups already there. */
  lemma {:induction false} KeyIndexSnoc(gs: seq<Group>, g: Group, k: string)
    ensures KeyIndex(gs + [g], k) ==
      if KeyIndex(gs, k) < |gs| then KeyIndex(gs, k) else if g.key == k then |gs| else |gs| + 1
    decreases |gs|
  {
    if gs != [] {
      assert (gs + [g])[0] == gs[0];
      assert (gs + [g])[1..] == gs[1..] + [g];
      if gs[0].key != k {
        KeyIndexSnoc(gs[1..], g, k);
      }
    }
  }

  /** `groupBy`'s step: push `r` onto its user's group, opening the group when it is new. */
  function AddToGroups(gs: seq<Group>, r: SessionRecord): (hs: seq<Group>)
    requires HasUser(r)
  {
    var k := r.user.value.id;
    var i := KeyIndex(gs, k);
    if i < |gs| then gs[i := Group(k, gs[i].members + [r])]
    else gs + [Group(k, [r])]
  }

  /** `groupBy(s => s.user.id)` over records that all have a user. */
  function GroupByUser(recs: seq<SessionRecord>): (gs: seq<Group>)
    requires AllHaveUser(recs)
    ensures forall i :: 0 <= i < |gs| ==> forall x :: x in gs[i].members ==> OwnedBy(x, gs[i].key)
    decreases |recs|
  {
    if recs == [] then []
    else AddToGroups(GroupByUser(recs[..|recs| - 1]), recs[|recs| - 1])
  }

  /**
   `gs` partitions the user-owned records of `recs`: keys are distinct, each group holds
   exactly its user's records in enumeration order and is not empty, and every record
   with a user has a group.
   */
  ghost predicate PartitionOf(gs: seq<Group>, recs: seq<SessionRecord>) {
    && (forall i, j :: 0 <= i < j < |gs| ==> gs[i].key != gs[j].key)
    && (forall i :: 0 <= i < |gs| ==> gs[i].members == RecordsOf(recs, gs[i].key))
    && (forall i :: 0 <= i < |gs| ==> gs[i].members != [])
    && (forall r :: r in recs && HasUser(r) ==> KeyIndex(gs, r.user.value.id) < |gs|)
  }

  /** A sequence none of whose elements is owned by `userId` has no records of that user. */
  lemma {:induction false} NoOwnedRecords(recs: seq<SessionRecord>, userId: string)
    ensures (forall r :: r in recs ==> !OwnedBy(r, userId)) ==> RecordsOf(recs, userId) == []
  {
    var owned := RecordsOf(recs, userId);
    if owned != [] {
      assert owned[0] in recs;
    }
  }

  /** A user without a group owns no record. */
  lemma {:induction false} NoGroupNoRecords(gs: seq<Group>, recs: seq<SessionRecord>, k: string)
    requires PartitionOf(gs, recs)
    requires KeyIndex(gs, k) == |gs|
    ensures RecordsOf(recs, k) == []
  {
    forall r | r in recs
      ensures !OwnedBy(r, k)
    {
      if HasUser(r) {
        var i := KeyIndex(gs, r.user.value.id);
        assert gs[i].key == r.user.value.id;
        assert gs[i].key != k;
      }
    }
    NoOwnedRecords(recs, k);
  }

  /** Appending `r` appends it to exactly its owner's records. */
  lemma {:induction false} RecordsOfSnoc(recs: seq<SessionRecord>, r: SessionRecord, u: string)
    ensures RecordsOf(recs + [r], u) == RecordsOf(recs, u) + (if OwnedBy(r, u) then [r] else [])
  {
    RecordsWhereSnoc(recs, r, Users([u]));
  }

  /** Pushing `r` onto the existing group of its user keeps the partition. */
  lemma {:induction false} AddToExistingGroup(gs: seq<Group>, recs: seq<SessionRecord>, r: SessionRecord)
    requires PartitionOf(gs, recs)
    requires HasUser(r) && KeyIndex(gs, r.user.value.id) < |gs|
    ensures PartitionOf(AddToGroups(gs, r), recs + [r])
  {
    var k := r.user.value.id;
    var i := KeyIndex(gs, k);
    var hs := AddToGroups(gs, r);
    assert hs == gs[i := Group(k, gs[i].members + [r])];
    forall j | 0 <= j < |hs|
      ensures hs[j].key == gs[j].key
      ensures hs[j].members == RecordsOf(recs + [r], hs[j].key)
      ensures hs[j].members != []
    {
      RecordsOfSnoc(recs, r, gs[j].key);
    }
    forall x
      ensures KeyIndex(hs, x) == KeyIndex(gs, x)
    {
      KeyIndexSameKeys(gs, hs, x);
    }
    forall q | q in recs + [r] && HasUser(q)
      ensures KeyIndex(hs, q.user.value.id) < |hs|
    {
      if q != r {
        assert q in recs;
      }
    }
  }

  /** Opening a group for the first record of a user keeps the partition. */
  lemma {:induction false} AddNewGroup(gs: seq<Group>, recs: seq<SessionRecord>, r: SessionRecord)
    requires PartitionOf(gs, recs)
    requires HasUser(r) && KeyIndex(gs, r.user.value.id) == |gs|
    ensures PartitionOf(AddToGroups(gs, r), recs + [r])
  {
    var k := r.user.value.id;
    var hs := AddToGroups(gs, r);
    assert hs == gs + [Group(k, [r])];
    NoGroupNoRecords(gs, recs, k);
    forall x
      ensures KeyIndex(hs, x) == if KeyIndex(gs, x) < |gs| then KeyIndex(gs, x) else if k == x then |gs| else |gs| + 1
    {
      KeyIndexSnoc(gs, Group(k, [r]), x);
    }
    forall j | 0 <= j < |hs|
      ensures hs[j].members == RecordsOf(recs + [r], hs[j].key)
    {
      RecordsOfSnoc(recs, r, hs[j].key);
    }
    forall j | 0 <= j < |gs|
      ensures hs[j].key != k
    {
      assert hs[j] == gs[j];
    }
    forall q | q in recs + [r] && HasUser(q)
      ensures KeyIndex(hs, q.user.value.id) < |hs|
    {
      if q != r {
        assert q in recs;
      }
    }
  }

  lemma {:induction false} AddToGroupsPreservesPartition(gs: seq<Group>, recs: seq<SessionRecord>, r: SessionRecord)
    requires PartitionOf(gs, recs)
    requires HasUser(r)
    ensures PartitionOf(AddToGroups(gs, r), recs + [r])
  {
    if KeyIndex(gs, r.user.value.id) < |gs| {
      AddToExistingGroup(gs, recs, r);
    } else {
      AddNewGroup(gs, recs, r);
    }
  }

  lemma {:induction false} GroupByUserIsPartition(recs: seq<SessionRecord>)
    requires AllHaveUser(recs)
    ensures PartitionOf(GroupByUser(recs), recs)
    decreases |recs|
  {
    if recs != [] {
      var init, last := recs[..|recs| - 1], recs[|recs| - 1];
      assert recs == init + [last];
      GroupByUserIsPartition(init);
      AddToGroupsPreservesPartition(GroupByUser(init), init, last);
    }
  }

  /** The members of the selected groups, group after group. */
  function FlatWhere(gs: seq<Group>, sel: Selection): seq<SessionRecord>
    decreases |gs|
  {
    if gs == [] then []
    else
      var last := gs[|gs| - 1];
      FlatWhere(gs[..|gs| - 1], sel) + (if Selects(sel, last.key) then last.members else [])
  }

  lemma {:induction false} FlatWhereSnoc(gs: seq<Group>, g: Group, sel: Selection)
    ensures FlatWhere(gs + [g], sel) == FlatWhere(gs, sel) + (if Selects(sel, g.key) then g.members else [])
  {
    assert (gs + [g])[..|gs|] == gs;
  }

  /** Flattening a concatenation flattens each part. */
  lemma {:induction false} FlatWhereAppend(a: seq<Group>, b: seq<Group>, sel: Selection)
    ensures FlatWhere(a + b, sel) == FlatWhere(a, sel) + FlatWhere(b, sel)
    decreases |b|
  {
    if b == [] {
      assert a + b == a;
    } else {
      var init, last := b[..|b| - 1], b[|b| - 1];
      var part := if Selects(sel, last.key) then last.members else [];
      assert b == init + [last];
      assert a + b == (a + init) + [last];
      calc {
        FlatWhere(a + b, sel);
        { FlatWhereSnoc(a + init, last, sel); }
        FlatWhere(a + init, sel) + part;
        { FlatWhereAppend(a, init, sel); }
        FlatWhere(a, sel) + FlatWhere(init, sel) + part;
        { FlatWhereSnoc(init, last, sel); }
        FlatWhere(a, sel) + FlatWhere(b, sel);
      }
    }
  }

  /** Pushing `r` onto group `i` adds `r` to the flattening exactly when the group is selected. */
  lemma {:induction false} FlatWhereUpdate(gs: seq<Group>, i: nat, r: SessionRecord, sel: Selection)
    requires i < |gs|
    ensures multiset(FlatWhere(gs[i := Group(gs[i].key, gs[i].members + [r])], sel)) ==
            multiset(FlatWhere(gs, sel)) + (if Selects(sel, gs[i].key) then multiset{r} else multiset{})
  {
    var g := Group(gs[i].key, gs[i].members + [r]);
    var before, after := gs[..i], gs[i + 1..];
    assert gs == before + [gs[i]] + after;
    assert gs[i := g] == before + [g] + after;
    FlatWhereAppend(before + [gs[i]], after, sel);
    FlatWhereAppend(before + [g], after, sel);
    FlatWhereSnoc(before, gs[i], sel);
    FlatWhereSnoc(before, g, sel);
  }

  /** Grouping loses and invents no record: the selected groups hold exactly the selected records. */
  lemma {:induction false} GroupByUserFlatWhere(recs: seq<SessionRecord>, sel: Selection)
    requires AllHaveUser(recs)
    ensures multiset(FlatWhere(GroupByUser(recs), sel)) == multiset(RecordsWhere(recs, sel))
    decreases |recs|
  {
    if recs != [] {
      var init, r := recs[..|recs| - 1], recs[|recs| - 1];
      assert recs == init + [r];
      assert r in recs;
      GroupByUserFlatWhere(init, sel);
      RecordsWhereSnoc(init, r, sel);
      var gs := GroupByUser(init);
      var k := r.user.value.id;
      var i := KeyIndex(gs, k);
      if i < |gs| {
        FlatWhereUpdate(gs, i, r, sel);
      } else {
        FlatWhereSnoc(gs, Group(k, [r]), sel);
      }
    }
  }
}

=== FILE: session_registry.dfy ===
/**
 The session registry of the API server: enumerate sessions grouped by user, look up
 one user's sessions or those of a set of users, and kill sessions through the store.
 Every enumeration is recomputed from the store's `all`; nothing is cached.
 */
module SessionRegistry {
  import opened Wrappers
  import opened SessionTypes
  import opened SessionCodec
  import opened SessionGrouping
  import opened JsStrings

  /** The `{ user_id, sessions }` entries of grouped records. */
  function Project(gs: seq<Group>): (groups: seq<UserSessions>)
    requires forall i :: 0 <= i < |gs| ==> AllHaveUser(gs[i].members)
    ensures |groups| == |gs|
    ensures forall i :: 0 <= i < |gs| ==>
      groups[i].userId == gs[i].key && groups[i].sessions == MapDescribe(gs[i].members)
  {
    seq(|gs|, i requires 0 <= i < |gs| => UserSessions(gs[i].key, MapDescribe(gs[i].members)))
  }

  /** Grouping the records that have a user partitions the user-owned records of the whole store. */
  lemma {:induction false} WithUserPartition(recs: seq<SessionRecord>)
    ensures AllHaveUser(RecordsWhere(recs, AllUsers))
    ensures PartitionOf(GroupByUser(RecordsWhere(recs, AllUsers)), recs)
  {
    var w := RecordsWhere(recs, AllUsers);
    GroupByUserIsPartition(w);
    var gs := GroupByUser(w);
    forall u
      ensures RecordsOf(w, u) == RecordsOf(recs, u)
    {
      RecordsWhereAfterWithUser(recs, Users([u]));
    }
    forall r | r in recs && HasUser(r)
      ensures KeyIndex(gs, r.user.value.id) < |gs|
    {
      assert r in w;
    }
  }

  /**
   `findSessions`: the records that have a user, grouped by user id, each mapped to its
   descriptor. Anonymous records never surface, user ids are distinct, each entry holds
   exactly that user's records in store order, and every user with a record has an entry.
   */
  function FindSessions(store: Store): (groups: seq<UserSessions>)
    ensures forall i, j :: 0 <= i < j < |groups| ==> groups[i].userId != groups[j].userId
    ensures forall i :: 0 <= i < |groups| ==>
      groups[i].sessions == MapDescribe(RecordsOf(store.records, groups[i].userId))
    ensures forall i :: 0 <= i < |groups| ==> groups[i].sessions != []
    ensures forall r :: r in store.records && HasUser(r) ==>
      exists i :: 0 <= i < |groups| && groups[i].userId == r.user.value.id
  {
    WithUserPartition(store.records);
    Project(GroupByUser(RecordsWhere(store.records, AllUsers)))
  }

  /** `filter(s => s.user_id === userId)` over the grouped entries. */
  function MatchingGroups(groups: seq<UserSessions>, userId: string): (matching: seq<UserSessions>)
    ensures forall g :: g in matching <==> g in groups && g.userId == userId
  {
    if groups == [] then []
    else (if groups[0].userId == userId then [groups[0]] else []) + MatchingGroups(groups[1..], userId)
  }

  lemma {:induction false} FindUserSessionsFound(store: Store, userId: string)
    ensures var matching := MatchingGroups(FindSessions(store), userId);
      |matching| > 0 ==> matching[0].sessions == MapDescribe(RecordsOf(store.records, userId))
    ensures var matching := MatchingGroups(FindSessions(store), userId);
      |matching| == 0 ==> RecordsOf(store.records, userId) == []
  {
    var groups := FindSessions(store);
    var matching := MatchingGroups(groups, userId);
    if |matching| > 0 {
      assert matching[0] in matching;
      var i :| 0 <= i < |groups| && groups[i] == matching[0];
    } else {
      forall i | 0 <= i < |groups|
        ensures groups[i].userId != userId
      {
        assert groups[i] !in matching;
      }
      forall r | r in store.records
        ensures !OwnedBy(r, userId)
      {
        if HasUser(r) {
          var i :| 0 <= i < |groups| && groups[i].userId == r.user.value.id;
        }
      }
      NoOwnedRecords(store.records, userId);
    }
  }

  /**
   `findUserSessions`: the descriptors of one user's sessions in store order, and the empty
   sequence (not an error) for a user with no session.
   */
  function FindUserSessions(store: Store, userId: string): (sessions: seq<SessionDescriptor>)
    ensures sessions == MapDescribe(RecordsOf(store.records, userId))
    ensures (forall r :: r in store.records ==> !OwnedBy(r, userId)) ==> sessions == []
  {
    var matching := MatchingGroups(FindSessions(store), userId);
    FindUserSessionsFound(store, userId);
    NoOwnedRecords(store.records, userId);
    if |matching| > 0 then matching[0].sessions else []
  }

  /** `filter(selected).map(s => s.sessions).flat()` over the grouped entries. */
  function ConcatSessions(groups: seq<UserSessions>, sel: Selection): (flat: seq<SessionDescriptor>)
    ensures forall d :: d in flat <==>
      exists i :: 0 <= i < |groups| && Selects(sel, groups[i].userId) && d in groups[i].sessions
    decreases |groups|
  {
    if groups == [] then []
    else
      var last := groups[|groups| - 1];
      ConcatSessions(groups[..|groups| - 1], sel) + (if Selects(sel, last.userId) then last.sessions else [])
  }

  /** Flattening the projected groups describes the flattened groups. */
  lemma {:induction false} ConcatSessionsOfProject(gs: seq<Group>, sel: Selection)
    requires forall i :: 0 <= i < |gs| ==> AllHaveUser(gs[i].members)
    ensures AllHaveUser(FlatWhere(gs, sel))
    ensures ConcatSessions(Project(gs), sel) == MapDescribe(FlatWhere(gs, sel))
    decreases |gs|
  {
    if gs != [] {
      var n := |gs| - 1;
      assert Project(gs)[..n] == Project(gs[..n]);
      ConcatSessionsOfProject(gs[..n], sel);
      MapDescribeAppend(FlatWhere(gs[..n], sel), if Selects(sel, gs[n].key) then gs[n].members else []);
    }
  }

  /** The selected entries of `findSessions` hold exactly the descriptors of the selected records. */
  lemma {:induction false} SelectedSessions(store: Store, sel: Selection)
    ensures AllHaveUser(RecordsWhere(store.records, sel))
    ensures multiset(ConcatSessions(FindSessions(store), sel)) ==
            multiset(MapDescribe(RecordsWhere(store.records, sel)))
  {
    var w := RecordsWhere(store.records, AllUsers);
    WithUserPartition(store.records);
    var gs := GroupByUser(w);
    ConcatSessionsOfProject(gs, sel);
    GroupByUserFlatWhere(w, sel);
    RecordsWhereAfterWithUser(store.records, sel);
    MapDescribePermutation(FlatWhere(gs, sel), RecordsWhere(store.records, sel));
  }

  /**
   `findSessions` loses and invents nothing: its entries together hold one descriptor per
   record that has a user, so the descriptor count equals the count of such records.
   */
  lemma {:induction false} FindSessionsLosesNoSession(store: Store)
    ensures AllHaveUser(RecordsWhere(store.records, AllUsers))
    ensures multiset(ConcatSessions(FindSessions(store), AllUsers)) ==
            multiset(MapDescribe(RecordsWhere(store.records, AllUsers)))
    ensures |ConcatSessions(FindSessions(store), AllUsers)| == |RecordsWhere(store.records, AllUsers)|
  {
    SelectedSessions(store, AllUsers);
    var flat := ConcatSessions(FindSessions(store), AllUsers);
    assert |flat| == |multiset(flat)|;
    assert |MapDescribe(RecordsWhere(store.records, AllUsers))| ==
           |multiset(MapDescribe(RecordsWhere(store.records, AllUsers)))|;
  }

  /** The user ids of the selected entries, in entry order. */
  function SelectedIds(groups: seq<UserSessions>, sel: Selection): (ids: seq<string>)
    ensures forall u :: u in ids <==> Selects(sel, u) && exists g :: g in groups && g.userId == u
    decreases |groups|
  {
    if groups == [] then []
    else
      var last := groups[|groups| - 1];
      assert groups == groups[..|groups| - 1] + [last];
      SelectedIds(groups[..|groups| - 1], sel) + (if Selects(sel, last.userId) then [last.userId] else [])
  }

  /** The sessions of each listed user in turn, one `findUserSessions` per id. */
  function SessionsOfUsers(store: Store, ids: seq<string>): seq<SessionDescriptor>
    decreases |ids|
  {
    if ids == [] then []
    else SessionsOfUsers(store, ids[..|ids| - 1]) + FindUserSessions(store, ids[|ids| - 1])
  }

  /**
   Flattening entries that each hold their user's sessions is looking those users up one
   after another, in entry order.
   */
  lemma {:induction false} ConcatSessionsByUser(store: Store, groups: seq<UserSessions>, sel: Selection)
    requires forall i :: 0 <= i < |groups| ==> groups[i].sessions == FindUserSessions(store, groups[i].userId)
    ensures ConcatSessions(groups, sel) == SessionsOfUsers(store, SelectedIds(groups, sel))
    decreases |groups|
  {
    if groups != [] {
      var n := |groups| - 1;
      var ids := SelectedIds(groups[..n], sel);
      ConcatSessionsByUser(store, groups[..n], sel);
      if Selects(sel, groups[n].userId) {
        assert (ids + [groups[n].userId])[..|ids|] == ids;
      } else {
        assert SelectedIds(groups, sel) == ids;
      }
    }
  }

  /** A user is among the selected entries of `findSessions` exactly when selected and owning a record. */
  lemma {:induction false} SelectedIdsAreOwners(store: Store, sel: Selection)
    ensures forall u :: u in SelectedIds(FindSessions(store), sel) <==>
      Selects(sel, u) && exists r :: r in store.records && OwnedBy(r, u)
  {
    var groups := FindSessions(store);
    forall u | u in SelectedIds(groups, sel)
      ensures exists r :: r in store.records && OwnedBy(r, u)
    {
      var g :| g in groups && g.userId == u;
      var i :| 0 <= i < |groups| && groups[i] == g;
      var owned := RecordsOf(store.records, u);
      assert |owned| == |g.sessions| > 0;
      assert owned[0] in owned;
    }
    forall u, r | Selects(sel, u) && r in store.records && OwnedBy(r, u)
      ensures u in SelectedIds(groups, sel)
    {
      var i :| 0 <= i < |groups| && groups[i].userId == r.user.value.id;
      assert groups[i] in groups;
    }
  }

  /**
   `findSessionsForUsers`: the sessions of exactly the listed users, flattened user after
   user in the order of the `findSessions` entries; every
   returned descriptor describes a record of a listed user, and each such record is
   described once.
   */
  function FindSessionsForUsers(store: Store, userIds: seq<string>): (sessions: seq<SessionDescriptor>)
    ensures sessions == SessionsOfUsers(store, SelectedIds(FindSessions(store), Users(userIds)))
    ensures AllHaveUser(RecordsWhere(store.records, Users(userIds)))
    ensures multiset(sessions) == multiset(MapDescribe(RecordsWhere(store.records, Users(userIds))))
    ensures forall d :: d in sessions ==>
      exists r :: r in store.records && KeptBy(r, Users(userIds)) && d == Describe(r)
  {
    SelectedSessions(store, Users(userIds));
    var sessions := ConcatSessions(FindSessions(store), Users(userIds));
    ConcatSessionsByUser(store, FindSessions(store), Users(userIds));
    ForUsersOrigin(store, userIds, sessions);
    sessions
  }

  lemma {:induction false} ForUsersOrigin(store: Store, userIds: seq<string>, sessions: seq<SessionDescriptor>)
    requires AllHaveUser(RecordsWhere(store.records, Users(userIds)))
    requires multiset(sessions) == multiset(MapDescribe(RecordsWhere(store.records, Users(userIds))))
    ensures forall d :: d in sessions ==>
      exists r :: r in store.records && KeptBy(r, Users(userIds)) && d == Describe(r)
  {
    forall d | d in sessions
      ensures exists r :: r in store.records && KeptBy(r, Users(userIds)) && d == Describe(r)
    {
      assert d in multiset(sessions);
      MapDescribeOrigin(RecordsWhere(store.records, Users(userIds)), d);
    }
  }

  /**
   Anonymous records never surface: every descriptor of an entry describes a record of the
   store owned by that entry's user.
   */
  lemma {:induction false} FindSessionsSurfacesOnlyOwnedRecords(store: Store)
    ensures var groups := FindSessions(store);
      forall i, d :: 0 <= i < |groups| && d in groups[i].sessions ==>
        exists r :: r in store.records && OwnedBy(r, groups[i].userId) && d == Describe(r)
  {
    var groups := FindSessions(store);
    forall i, d | 0 <= i < |groups| && d in groups[i].sessions
      ensures exists r :: r in store.records && OwnedBy(r, groups[i].userId) && d == Describe(r)
    {
      MapDescribeOrigin(RecordsOf(store.records, groups[i].userId), d);
    }
  }

  /** The records left once every record whose key is in `keys` is gone, in store order. */
  function WithoutKeys(recs: seq<SessionRecord>, keys: seq<string>): (kept: seq<SessionRecord>)
    ensures forall r :: r in kept <==> r in recs && r.redisKeyId !in keys
    decreases |recs|
  {
    if recs == [] then []
    else
      var last := recs[|recs| - 1];
      WithoutKeys(recs[..|recs| - 1], keys) + (if last.redisKeyId in keys then [] else [last])
  }

  lemma {:induction false} WithoutKeysSnoc(recs: seq<SessionRecord>, r: SessionRecord, keys: seq<string>)
    ensures WithoutKeys(recs + [r], keys) == WithoutKeys(recs, keys) + (if r.redisKeyId in keys then [] else [r])
  {
    assert (recs + [r])[..|recs|] == recs;
  }

  /** Deleting no key keeps every record in place. */
  lemma {:induction false} WithoutNoKeys(recs: seq<SessionRecord>)
    ensures WithoutKeys(recs, []) == recs
    decreases |recs|
  {
    if recs != [] {
      var init, last := recs[..|recs| - 1], recs[|recs| - 1];
      assert recs == init + [last];
      WithoutNoKeys(init);
      WithoutKeysSnoc(init, last, []);
    }
  }

  /** Deleting `keys` and then `k` is deleting `keys + [k]`. */
  lemma {:induction false} WithoutKeysThenKey(recs: seq<SessionRecord>, keys: seq<string>, k: string)
    ensures WithoutKeys(WithoutKeys(recs, keys), [k]) == WithoutKeys(recs, keys + [k])
    decreases |recs|
  {
    if recs != [] {
      var init, last := recs[..|recs| - 1], recs[|recs| - 1];
      assert recs == init + [last];
      var w := WithoutKeys(init, keys);
      var tail := if last.redisKeyId in keys + [k] then [] else [last];
      calc {
        WithoutKeys(WithoutKeys(recs, keys), [k]);
        { WithoutKeysSnoc(init, last, keys); }
        WithoutKeys(w + (if last.redisKeyId in keys then [] else [last]), [k]);
        { if last.redisKeyId !in keys { WithoutKeysSnoc(w, last, [k]); } else { assert w + [] == w; } }
        WithoutKeys(w, [k]) + tail;
        { WithoutKeysThenKey(init, keys, k); }
        WithoutKeys(init, keys + [k]) + tail;
        { WithoutKeysSnoc(init, last, keys + [k]); }
        WithoutKeys(recs, keys + [k]);
      }
    }
  }

  /** Some record of `recs` is stored under `key`. */
  predicate HasKey(recs: seq<SessionRecord>, key: string) {
    exists r | r in recs :: r.redisKeyId == key
  }

  /** What the store's `destroy(sid, cb)` does and hands to its callback. */
  datatype Destroyed = Destroyed(store: Store, callback: Callback<DestroyData>)

  /**
   The store's `destroy`: it deletes the key `prefix + sid`; deleting an absent key is a
   successful no-op. A key in `failing` stands for a store that cannot be reached: the
   callback then gets an error and no data, and nothing is deleted.
   */
  function Destroy(store: Store, sid: string, failing: set<string>): Destroyed {
    var key := store.prefix + sid;
    if key in failing then Destroyed(store, Callback(Some(StoreUnavailable), None))
    else Destroyed(store.(records := WithoutKeys(store.records, [key])),
                   Callback(None, Some(DestroyData(HasKey(store.records, key)))))
  }

  /** The outcome of `killSession`: the store afterwards and the value the promise resolves with. */
  datatype Killed = Killed(store: Store, data: Option<DestroyData>)

  /**
   `killSession`: always resolves, with the data the store's callback received; the
   callback's error is dropped, so a failure resolves with `undefined` (None).
   */
  function KillSession(store: Store, sid: string, failing: set<string>): (k: Killed)
    ensures k.store.prefix == store.prefix
    ensures forall r :: r in k.store.records <==>
      r in store.records && (r.redisKeyId != store.prefix + sid || store.prefix + sid in failing)
    ensures k.data.Some? <==> store.prefix + sid !in failing
    ensures k.data.Some? ==> (k.data.value.existed <==> HasKey(store.records, store.prefix + sid))
  {
    var d := Destroy(store, sid, failing);
    Killed(d.store, d.callback.data)
  }

  /**
   Killing a session twice, each call with its own outages `f1` and `f2`: after a first
   kill that reached the store, the second leaves the store as it was and finds nothing;
   after a first kill that failed, the second acts as if it were the only one.
   */
  lemma {:induction false} KillSessionIdempotent(store: Store, sid: string, f1: set<string>, f2: set<string>)
    ensures var first := KillSession(store, sid, f1);
      store.prefix + sid !in f1 ==>
        && KillSession(first.store, sid, f2).store == first.store
        && (KillSession(first.store, sid, f2).data.Some? ==> !KillSession(first.store, sid, f2).data.value.existed)
    ensures var first := KillSession(store, sid, f1);
      store.prefix + sid in f1 ==> KillSession(first.store, sid, f2) == KillSession(store, sid, f2)
  {
    var key := store.prefix + sid;
    if key !in f1 {
      WithoutKeysThenKey(store.records, [key], key);
      assert [key] + [key] == [key, key];
      WithoutKeysSameKeys(store.records, [key, key], [key]);
    }
  }

  /** Only which keys are listed matters to `WithoutKeys`. */
  lemma {:induction false} WithoutKeysSameKeys(recs: seq<SessionRecord>, keys: seq<string>, keys': seq<string>)
    requires forall k :: k in keys <==> k in keys'
    ensures WithoutKeys(recs, keys) == WithoutKeys(recs, keys')
    decreases |recs|
  {
    if recs != [] {
      WithoutKeysSameKeys(recs[..|recs| - 1], keys, keys');
    }
  }

  /** The ids of a list of descriptors, in order (`sessions.map((s) => s.id)`). */
  function SessionIds(sessions: seq<SessionDescriptor>): (ids: seq<string>)
    ensures |ids| == |sessions|
    ensures forall i :: 0 <= i < |sessions| ==> ids[i] == sessions[i].id
  {
    seq(|sessions|, i requires 0 <= i < |sessions| => sessions[i].id)
  }

  /** A store key is the prefix followed by a session id that does not contain the prefix. */
  predicate IsStoreKey(prefix: string, key: string) {
    |prefix| <= |key| && key[..|prefix|] == prefix && !Contains(key[|prefix|..], prefix)
  }

  /** Every key of the store is built from its non-empty prefix. */
  predicate WellPrefixed(store: Store) {
    |store.prefix| > 0 && forall r :: r in store.records ==> IsStoreKey(store.prefix, r.redisKeyId)
  }

  /** The keys of `keys` the store could reach, in order. */
  function Reached(keys: seq<string>, failing: set<string>): (reached: seq<string>)
    ensures forall k :: k in reached <==> k in keys && k !in failing
    decreases |keys|
  {
    if keys == [] then []
    else
      var last := keys[|keys| - 1];
      Reached(keys[..|keys| - 1], failing) + (if last in failing then [] else [last])
  }

  /** The ids of a user's sessions are the keys of that user's records, in store order. */
  lemma {:induction false} UserSessionIdsAreRecordKeys(store: Store, userId: string)
    ensures var ids, owned := SessionIds(FindUserSessions(store, userId)), RecordsOf(store.records, userId);
      |ids| == |owned| && forall j :: 0 <= j < |ids| ==> ids[j] == owned[j].redisKeyId
  {
    var owned := RecordsOf(store.records, userId);
    var ids := SessionIds(FindUserSessions(store, userId));
    forall j | 0 <= j < |ids|
      ensures ids[j] == owned[j].redisKeyId
    {
      assert ids[j] == MapDescribe(owned)[j].id;
    }
  }

  /** The ids of a user's sessions are store keys present in the store. */
  lemma {:induction false} UserSessionIdsAreKeys(store: Store, userId: string)
    requires WellPrefixed(store)
    ensures var ids := SessionIds(FindUserSessions(store, userId));
      forall j :: 0 <= j < |ids| ==> IsStoreKey(store.prefix, ids[j]) && HasKey(store.records, ids[j])
  {
    var owned := RecordsOf(store.records, userId);
    var ids := SessionIds(FindUserSessions(store, userId));
    UserSessionIdsAreRecordKeys(store, userId);
    forall j | 0 <= j < |ids|
      ensures IsStoreKey(store.prefix, ids[j]) && HasKey(store.records, ids[j])
    {
      assert owned[j] in owned;
      assert owned[j] in store.records;
    }
  }

  /** Every record of the user is listed among the ids of the user's sessions. */
  lemma {:induction false} UserRecordsAreListed(store: Store, userId: string)
    ensures var ids := SessionIds(FindUserSessions(store, userId));
      forall r :: r in store.records && OwnedBy(r, userId) ==> r.redisKeyId in ids
  {
    var owned := RecordsOf(store.records, userId);
    var ids := SessionIds(FindUserSessions(store, userId));
    UserSessionIdsAreRecordKeys(store, userId);
    KeysListed(owned, ids);
  }

  /** Keys read off a sequence of records, position by position, list every record's key. */
  lemma {:induction false} KeysListed(recs: seq<SessionRecord>, ids: seq<string>)
    requires |ids| == |recs|
    requires forall j :: 0 <= j < |ids| ==> ids[j] == recs[j].redisKeyId
    ensures forall r :: r in recs ==> r.redisKeyId in ids
  {
    forall r | r in recs
      ensures r.redisKeyId in ids
    {
      var j :| 0 <= j < |recs| && recs[j] == r;
      assert ids[j] == r.redisKeyId;
    }
  }

  lemma {:induction false} ReachedSnoc(keys: seq<string>, k: string, failing: set<string>)
    ensures Reached(keys + [k], failing) == Reached(keys, failing) + (if k in failing then [] else [k])
  {
    assert (keys + [k])[..|keys|] == keys;
  }

  /** After the first kills, the store still holds a key exactly when it held it and no kill reached it. */
  lemma {:induction false} HasKeyWithoutKeys(recs: seq<SessionRecord>, keys: seq<string>, key: string)
    ensures HasKey(WithoutKeys(recs, keys), key) <==> HasKey(recs, key) && key !in keys
  {
    if HasKey(WithoutKeys(recs, keys), key) {
      var r :| r in WithoutKeys(recs, keys) && r.redisKeyId == key;
      assert r in recs;
    }
    if HasKey(recs, key) && key !in keys {
      var r :| r in recs && r.redisKeyId == key;
      assert r in WithoutKeys(recs, keys);
    }
  }

  /** Splitting a store key on the prefix gives the session id the store prefixed. */
  lemma {:induction false} SplitStoreKey(prefix: string, key: string)
    requires |prefix| > 0 && IsStoreKey(prefix, key)
    ensures SplitSecond(key, prefix) == Some(key[|prefix|..])
    ensures prefix + key[|prefix|..] == key
  {
    assert key == prefix + key[|prefix|..];
    SplitSecondStripsPrefix(prefix, key[|prefix|..]);
  }

  /** What is left after deleting every reachable key of `ids`. */
  lemma {:induction false} WithoutReachedKeys(recs: seq<SessionRecord>, ids: seq<string>, failing: set<string>)
    ensures forall r :: r in WithoutKeys(recs, Reached(ids, failing)) <==>
      r in recs && (r.redisKeyId !in ids || r.redisKeyId in failing)
  {
  }

  /** One turn of the `killUserSessions` loop, on the store left by the earlier turns. */
  lemma {:induction false} KillStep(store: Store, ids: seq<string>, index: nat, failing: set<string>, sid: string)
    requires index < |ids| && HasKey(store.records, ids[index])
    requires store.prefix + sid == ids[index]
    ensures var before := store.(records := WithoutKeys(store.records, Reached(ids[..index], failing)));
      var k := KillSession(before, sid, failing);
      && k.store == store.(records := WithoutKeys(store.records, Reached(ids[..index + 1], failing)))
      && k.data == if ids[index] in failing then None else Some(DestroyData(ids[index] !in ids[..index]))
  {
    var done := Reached(ids[..index], failing);
    var before := store.(records := WithoutKeys(store.records, done));
    var k := KillSession(before, sid, failing);
    assert ids[..index + 1] == ids[..index] + [ids[index]];
    ReachedSnoc(ids[..index], ids[index], failing);
    if ids[index] !in failing {
      WithoutKeysThenKey(store.records, done, ids[index]);
      HasKeyWithoutKeys(store.records, done, ids[index]);
    } else {
      assert done + [] == done;
    }
  }

  /** The value each `killSession` of the loop resolves with, key after key. */
  function Replies(ids: seq<string>, failing: set<string>): (replies: seq<Option<DestroyData>>)
    ensures |replies| == |ids|
    decreases |ids|
  {
    if ids == [] then []
    else
      var init, last := ids[..|ids| - 1], ids[|ids| - 1];
      Replies(init, failing) + [if last in failing then None else Some(DestroyData(last !in init))]
  }

  /**
   The `j`-th kill resolves with `undefined` when its key cannot be reached, and otherwise
   reports the key present exactly when no earlier kill of the loop had the same key.
   */
  lemma {:induction false} RepliesPointwise(ids: seq<string>, failing: set<string>)
    ensures forall j :: 0 <= j < |ids| ==>
      Replies(ids, failing)[j] == if ids[j] in failing then None else Some(DestroyData(ids[j] !in ids[..j]))
    decreases |ids|
  {
    if ids != [] {
      var n := |ids| - 1;
      RepliesPointwise(ids[..n], failing);
      forall j | 0 <= j < |ids|
        ensures Replies(ids, failing)[j] == if ids[j] in failing then None else Some(DestroyData(ids[j] !in ids[..j]))
      {
        if j < n {
          RepliesEarlier(ids, failing, j);
        }
      }
    }
  }

  /** An earlier reply is the reply the shorter run gave. */
  lemma {:induction false} RepliesEarlier(ids: seq<string>, failing: set<string>, j: nat)
    requires j + 1 < |ids|
    ensures var init := ids[..|ids| - 1];
      Replies(ids, failing)[j] == Replies(init, failing)[j] && init[j] == ids[j] && init[..j] == ids[..j]
  {
  }

  /** The ids passed to `killSession`: each key with the store prefix cut off. */
  function StripPrefix(ids: seq<string>, prefix: string): (sids: seq<string>)
    requires forall j :: 0 <= j < |ids| ==> |prefix| <= |ids[j]|
    ensures |sids| == |ids|
    ensures forall j :: 0 <= j < |ids| ==> sids[j] == ids[j][|prefix|..]
    decreases |ids|
  {
    if ids == [] then []
    else StripPrefix(ids[..|ids| - 1], prefix) + [ids[|ids| - 1][|prefix|..]]
  }

  /** The invariant of the `killUserSessions` loop after `index` turns. */
  ghost predicate KillLoopInvariant(store: Store, ids: seq<string>, failing: set<string>, index: nat,
                                    after: Store, killed: seq<Option<DestroyData>>, passed: seq<string>)
    requires index <= |ids|
    requires forall j :: 0 <= j < |ids| ==> |store.prefix| <= |ids[j]|
  {
    && after.prefix == store.prefix
    && killed == Replies(ids[..index], failing)
    && passed == StripPrefix(ids[..index], store.prefix)
    && after.records == WithoutKeys(store.records, Reached(ids[..index], failing))
  }

  /** One turn of the loop keeps its invariant. */
  lemma {:induction false} KillLoopStep(store: Store, ids: seq<string>, failing: set<string>, index: nat,
                     after: Store, killed: seq<Option<DestroyData>>, passed: seq<string>)
    requires |store.prefix| > 0 && index < |ids|
    requires IsStoreKey(store.prefix, ids[index]) && HasKey(store.records, ids[index])
    requires forall j :: 0 <= j < |ids| ==> |store.prefix| <= |ids[j]|
    requires KillLoopInvariant(store, ids, failing, index, after, killed, passed)
    ensures SplitSecond(ids[index], store.prefix) == Some(ids[index][|store.prefix|..])
    ensures var sid := ids[index][|store.prefix|..];
      var k := KillSession(after, sid, failing);
      KillLoopInvariant(store, ids, failing, index + 1, k.store, killed + [k.data], passed + [sid])
  {
    var sid := ids[index][|store.prefix|..];
    SplitStoreKey(store.prefix, ids[index]);
    KillStep(store, ids, index, failing, sid);
    assert ids[..index + 1][..index] == ids[..index];
  }

  /** After the last turn, the invariant gives what `KillEach` promises. */
  lemma {:induction false} KillLoopDone(store: Store, ids: seq<string>, failing: set<string>,
                     after: Store, killed: seq<Option<DestroyData>>, passed: seq<string>)
    requires |store.prefix| > 0
    requires forall j :: 0 <= j < |ids| ==> IsStoreKey(store.prefix, ids[j])
    requires forall j :: 0 <= j < |ids| ==> |store.prefix| <= |ids[j]|
    requires KillLoopInvariant(store, ids, failing, |ids|, after, killed, passed)
    ensures |passed| == |ids| && |killed| == |ids|
    ensures forall j :: 0 <= j < |ids| ==> store.prefix + passed[j] == ids[j]
    ensures forall j :: 0 <= j < |ids| ==>
      killed[j] == if ids[j] in failing then None else Some(DestroyData(ids[j] !in ids[..j]))
    ensures forall r :: r in after.records <==> r in store.records && (r.redisKeyId !in ids || r.redisKeyId in failing)
  {
    assert ids[..|ids|] == ids;
    RepliesPointwise(ids, failing);
    WithoutReachedKeys(store.records, ids, failing);
    forall j | 0 <= j < |ids|
      ensures store.prefix + passed[j] == ids[j]
    {
      SplitStoreKey(store.prefix, ids[j]);
    }
  }

  /**
   The loop of `killUserSessions` over the store keys `ids`: one `killSession` per key,
   one after another in order, each passed the key with the store prefix split off;
   the results come back in the same order. A store failure on one key does not stop
   the others: every key is attempted, and only the unreachable keys survive.
   */
  method KillEach(store: Store, ids: seq<string>, failing: set<string>)
    returns (after: Store, killed: seq<Option<DestroyData>>, passed: seq<string>)
    requires |store.prefix| > 0
    requires forall j :: 0 <= j < |ids| ==> IsStoreKey(store.prefix, ids[j]) && HasKey(store.records, ids[j])
    ensures after.prefix == store.prefix
    ensures |passed| == |ids| && |killed| == |ids|
    ensures forall j :: 0 <= j < |ids| ==> store.prefix + passed[j] == ids[j]
    ensures forall j :: 0 <= j < |ids| ==>
      killed[j] == if ids[j] in failing then None else Some(DestroyData(ids[j] !in ids[..j]))
    ensures forall r :: r in after.records <==> r in store.records && (r.redisKeyId !in ids || r.redisKeyId in failing)
  {
    after, killed, passed := store, [], [];
    WithoutNoKeys(store.records);
    for index := 0 to |ids|
      invariant KillLoopInvariant(store, ids, failing, index, after, killed, passed)
    {
      var sessionId := ids[index];
      KillLoopStep(store, ids, failing, index, after, killed, passed);
      var sessId := SplitSecond(sessionId, store.prefix);
      var k := KillSession(after, sessId.value, failing);
      after := k.store;
      killed := killed + [k.data];
      passed := passed + [sessId.value];
    }
    KillLoopDone(store, ids, failing, after, killed, passed);
  }

  /** The store keys of the records of `userId`, in store order. */
  function UserKeys(recs: seq<SessionRecord>, userId: string): seq<string>
    decreases |recs|
  {
    if recs == [] then []
    else
      var last := recs[|recs| - 1];
      UserKeys(recs[..|recs| - 1], userId) + (if OwnedBy(last, userId) then [last.redisKeyId] else [])
  }

  /** The keys of a sequence of records, position by position. */
  function KeysOf(recs: seq<SessionRecord>): (keys: seq<string>)
    ensures |keys| == |recs|
    ensures forall j :: 0 <= j < |recs| ==> keys[j] == recs[j].redisKeyId
  {
    seq(|recs|, j requires 0 <= j < |recs| => recs[j].redisKeyId)
  }

  lemma {:induction false} UserKeysOfRecords(recs: seq<SessionRecord>, userId: string)
    ensures UserKeys(recs, userId) == KeysOf(RecordsOf(recs, userId))
    decreases |recs|
  {
    if recs != [] {
      var init, last := recs[..|recs| - 1], recs[|recs| - 1];
      var tail := if OwnedBy(last, userId) then [last] else [];
      assert recs == init + [last];
      UserKeysOfRecords(init, userId);
      RecordsOfSnoc(init, last, userId);
      assert KeysOf(RecordsOf(init, userId) + tail) == KeysOf(RecordsOf(init, userId)) + KeysOf(tail);
    }
  }

  /** The ids `killUserSessions` reads off the user's sessions are the keys of the user's records, in store order. */
  lemma {:induction false} UserKeysAreSessionIds(store: Store, userId: string)
    ensures UserKeys(store.records, userId) == SessionIds(FindUserSessions(store, userId))
  {
    UserKeysOfRecords(store.records, userId);
    UserSessionIdsAreRecordKeys(store, userId);
  }

  /**
   `killUserSessions`: kills the user's sessions one at a time in enumeration order (see
   `KillEach`); afterwards no record of the user survives unless the store could not be
   reached for its key. `ids` are the keys the loop runs over: those of the user's records.
   */
  method KillUserSessions(store: Store, userId: string, failing: set<string>)
    returns (ids: seq<string>, after: Store, killed: seq<Option<DestroyData>>, passed: seq<string>)
    requires WellPrefixed(store)
    ensures ids == UserKeys(store.records, userId)
    ensures after.prefix == store.prefix
    ensures |passed| == |ids| && |killed| == |ids|
    ensures forall j :: 0 <= j < |ids| ==> store.prefix + passed[j] == ids[j]
    ensures forall j :: 0 <= j < |ids| ==>
      killed[j] == if ids[j] in failing then None else Some(DestroyData(ids[j] !in ids[..j]))
    ensures forall r :: r in after.records <==> r in store.records && (r.redisKeyId !in ids || r.redisKeyId in failing)
    ensures forall r :: r in after.records && OwnedBy(r, userId) ==> r.redisKeyId in failing
  {
    var sessions := FindUserSessions(store, userId);
    ids := SessionIds(sessions);
    UserKeysAreSessionIds(store, userId);
    UserSessionIdsAreKeys(store, userId);
    after, killed, passed := KillEach(store, ids, failing);
    UserRecordsAreListed(store, userId);
  }
}

=== FILE: session_types.dfy ===
/**
 The data of the session registry: raw records as the session store enumerates them,
 the descriptors the registry derives from them, and the store itself.
 */
module SessionTypes {
  import opened Wrappers

  /** The `user` object an authenticated session carries. */
  datatype SessionUser = SessionUser(id: string, sessionCreation: string)

  /** The session cookie; only its original max age (milliseconds) is read. */
  datatype Cookie = Cookie(originalMaxAge: int)

  /**
   A raw record returned by the store's `all`. `user` is absent for sessions that never
   logged in; `redisKeyId` is the store's full key (prefix included) and `redisKeyTtl`
   the remaining time to live the store reported.
   */
  datatype SessionRecord = SessionRecord(
    user: Option<SessionUser>,
    redisKeyId: string,
    redisKeyTtl: int,
    cookie: Cookie)

  /** What the registry reports for one session; `originalMaxAge` is in seconds. */
  datatype SessionDescriptor = SessionDescriptor(id: string, created: string, ttl: int, originalMaxAge: int)

  /** One entry of `findSessions`: a user and that user's sessions. */
  datatype UserSessions = UserSessions(userId: string, sessions: seq<SessionDescriptor>)

  /** The session store: its key prefix and the records `all` enumerates, in enumeration order. */
  datatype Store = Store(prefix: string, records: seq<SessionRecord>)

  /** The data a successful `destroy` hands to its callback. */
  datatype DestroyData = DestroyData(existed: bool)

  /** Why the store could not serve a request. */
  datatype StoreError = StoreUnavailable

  /** The two arguments a store callback receives: `(err, data)`. */
  datatype Callback<T> = Callback(err: Option<StoreError>, data: Option<T>)

  predicate HasUser(r: SessionRecord) {
    r.user.Some?
  }

  predicate OwnedBy(r: SessionRecord, userId: string) {
    r.user.Some? && r.user.value.id == userId
  }

  predicate AllHaveUser(recs: seq<SessionRecord>) {
    forall r :: r in recs ==> HasUser(r)
  }
}

=== FILE: summary_filters.dfy ===
/**
 The filter groups the AI summary query takes, and the time bound the summary panel
 adds to them when a relative period is chosen.
 */
module SummaryFilters {
  import opened Wrappers

  datatype FilterMode = And | Or

  /**
   A start date as the panel computes it: `daysAgo(n)` or `monthsAgo(n)`, kept
   symbolic. Either is a date object, hence truthy.
   */
  datatype DateTerm = DaysAgo(days: nat) | MonthsAgo(months: nat)

  datatype FilterValue = TextValue(text: string) | DateValue(date: DateTerm)

  /** One filter; `operator` and `mode` are optional. */
  datatype Filter = Filter(key: string, values: seq<FilterValue>, operator: Option<string>, mode: Option<FilterMode>)

  /** A filter group: a mode, its own filters and nested groups. */
  datatype FilterGroup = FilterGroup(mode: FilterMode, filters: seq<Filter>, filterGroups: seq<FilterGroup>)

  /** The relative periods the panel offers besides `"none"`. */
  const LastDay: string := "days-1"
  const LastWeek: string := "days-7"
  const LastMonth: string := "months-1"

  /**
   The start date of a relative period: three independent tests, the last match
   wins; any other token (`"none"` included) gives no date.
   */
  function StartDate(relative: string): (start: Option<DateTerm>)
    ensures start == Some(DaysAgo(1)) <==> relative == LastDay
    ensures start == Some(DaysAgo(7)) <==> relative == LastWeek
    ensures start == Some(MonthsAgo(1)) <==> relative == LastMonth
    ensures start.None? <==> relative !in {LastDay, LastWeek, LastMonth}
  {
    var none: Option<DateTerm> := None;
    var afterDay := if relative == LastDay then Some(DaysAgo(1)) else none;
    var afterWeek := if relative == LastWeek then Some(DaysAgo(7)) else afterDay;
    if relative == LastMonth then Some(MonthsAgo(1)) else afterWeek
  }

  /** The filter that keeps entities created at or after `start`. */
  function CreatedSince(start: DateTerm): (f: Filter)
    ensures IsCreatedBound(f) && f.values == [DateValue(start)] && f.mode.None?
  {
    Filter("created", [DateValue(start)], Some("gte"), None)
  }

  predicate IsCreatedBound(f: Filter) {
    f.key == "created" && f.operator == Some("gte")
  }

  /**
   The filters sent by a refetch: the panel's filters as they are for a single container
   or when there is no start date; otherwise the same group with one `created >= start`
   filter appended after its own filters.
   */
  function ComposeFilters(isContainer: bool, filters: FilterGroup, start: Option<DateTerm>): (sent: FilterGroup)
    ensures isContainer || start.None? ==> sent == filters
    ensures !isContainer && start.Some? ==>
      && sent.mode == filters.mode
      && sent.filterGroups == filters.filterGroups
      && |sent.filters| == |filters.filters| + 1
      && sent.filters[..|filters.filters|] == filters.filters
      && sent.filters[|filters.filters|] == CreatedSince(start.value)
  {
    if isContainer || start.None? then filters
    else FilterGroup(filters.mode, filters.filters + [CreatedSince(start.value)], filters.filterGroups)
  }

  /** How many `created >= …` bounds a list of filters holds. */
  function CountCreatedBounds(fs: seq<Filter>): (n: nat)
    ensures n <= |fs|
    decreases |fs|
  {
    if fs == [] then 0
    else CountCreatedBounds(fs[..|fs| - 1]) + (if IsCreatedBound(fs[|fs| - 1]) then 1 else 0)
  }

  /** Removing the last filter of a composed group gives back the panel's filters. */
  function DropAddedBound(isContainer: bool, sent: FilterGroup, start: Option<DateTerm>): (g: FilterGroup)
    requires !isContainer && start.Some? ==> |sent.filters| > 0
  {
    if isContainer || start.None? then sent
    else sent.(filters := sent.filters[..|sent.filters| - 1])
  }

  /** Composition loses nothing: dropping the added bound recovers the input exactly. */
  lemma ComposeThenDrop(isContainer: bool, filters: FilterGroup, start: Option<DateTerm>)
    ensures var sent := ComposeFilters(isContainer, filters, start);
      (!isContainer && start.Some? ==> |sent.filters| > 0) && DropAddedBound(isContainer, sent, start) == filters
  {
    var sent := ComposeFilters(isContainer, filters, start);
    if !isContainer && start.Some? {
      assert sent.filters[..|sent.filters| - 1] == filters.filters;
    }
  }

  /** A refetch adds at most one time bound, and exactly one when it has a start date outside a container. */
  lemma ComposeAddsOneBound(isContainer: bool, filters: FilterGroup, start: Option<DateTerm>)
    ensures CountCreatedBounds(ComposeFilters(isContainer, filters, start).filters) ==
            CountCreatedBounds(filters.filters) + (if !isContainer && start.Some? then 1 else 0)
  {
    var sent := ComposeFilters(isContainer, filters, start);
    if !isContainer && start.Some? {
      assert sent.filters[..|sent.filters| - 1] == filters.filters;
    }
  }

  /** The date a composed bound carries is the one the token names. */
  lemma BoundCarriesTokenDate(filters: FilterGroup, relative: string)
    requires relative in {LastDay, LastWeek, LastMonth}
    ensures var sent := ComposeFilters(false, filters, StartDate(relative));
      |sent.filters| == |filters.filters| + 1 &&
      sent.filters[|filters.filters|].values ==
        [DateValue(if relative == LastDay then DaysAgo(1) else if relative == LastWeek then DaysAgo(7) else MonthsAgo(1))]
  {
  }
}

=== FILE: wrappers.dfy ===
/** Optional values: JavaScript's `undefined`/`null` on one side, a value on the other. */
module Wrappers {

  datatype Option<+T> = None | Some(value: T) {

    /** Returns the value, or `default` when there is none (JavaScript's `??`). */
    function GetOr(default: T): T {
      match this
      case Some(v) => v
      case None => default
    }
  }
}
